=== FILE: README.md ===
# filebuffer, modelled in Dafny

filebuffer maps a whole file read-only into memory and hands it out as a byte
slice. A `FileBuffer` holds:

- the system page size;
- the mapped address, which is null for an empty file;
- the file's length.

It answers how many bytes from an offset are resident in physical memory
(`resident_len`). It advises the kernel to load a range (`prefetch`). Its
life ends in one of two ways: it is dropped, which unmaps the file, or it is
leaked, which keeps the mapping for the rest of the program. The Unix back end
wraps `mmap`, `munmap`, `mincore`, `madvise` and `sysconf(_SC_PAGESIZE)`.

The model targets a 64-bit platform. It uses the arithmetic of a debug build,
where every `usize` overflow panics, with one exception. At src/lib.rs:183,
`resident_len` as written goes below zero in one case (the first finding
below). `ResidentLen` returns the corrected value there. The code as written is
modelled beside it, in both debug and release form. Two more places follow the
evidently intended code, with the code as written modelled beside them: the
retry of `mincore` on a busy kernel (second finding), and the slice handed out
for an empty file (third finding).

The modules:

- `Usize`: the word size, and `&` and `!` on naturals. It also proves that
  `p & (p - 1) == 0` tests for a power of two, and that `x & !(p - 1)` rounds
  down.
- `Effects`: the outcomes an operation can have:
  - a panic, with its reason;
  - an `io::Error`;
  - the trace of system calls it issued.
- `Pages`: `round_up_to`, `round_down_to`, and the page-aligned range that
  `resident_len` and `prefetch` compute.
- `Residency`: what `resident_len` means, stated page by page and byte by byte.
- `Unix`: the back end.
  - The kernel's answers are parameters: `mmap`'s address and `errno`, the
    results of `munmap`, `madvise` and `mincore`, and the raw `sysconf` value.
  - Which pages are resident is a function from virtual page number to `bool`.
- `FileBuffers`: the `FileBuffer` class and its operations.
  - A panic is a result, `Outcome.Panic`, and not a precondition.
  - Ghost fields record the mapping `open` established, the number of `munmap`
    calls, and whether the buffer has been dropped.

## Model

| member | source | states |
|---|---|---|
| `Usize.PowerOfTwoTest` | src/unix.rs:100-102 | For a nonzero `p`, `p & (p - 1) == 0` holds exactly when `p` is a power of two, in both directions |
| `Usize.MaskRoundsDown` | src/lib.rs:81-83 | `x & !(p - 1)` equals `x - x % p` for every `usize` `x` and power-of-two `p` |
| `Pages.RoundDownTo` | src/lib.rs:80-83 | The mask result is a multiple of the page size, at most `size`, and less than a page below it. It equals `size - size % p` |
| `Pages.RoundUpTo` | src/lib.rs:68-71 | The mask result is a multiple of the page size, at least `size`, less than a page above it, and a `usize` |
| `Pages.MaskRounds` | src/lib.rs:68-83 | The shared mask clears the remainder modulo the page size and leaves a multiple less than a page below its argument |
| `Pages.RoundUpIsLeast` | src/lib.rs:68-71 | No multiple of the page size lies between `size` and `round_up_to(size)`: rounding up gives the least multiple that is at least `size` |
| `Pages.RoundDownIsGreatest` | src/lib.rs:80-83 | Rounding down gives the greatest multiple of the page size that is at most `size` |
| `Pages.RoundUpExact` | src/lib.rs:68-71 | `round_up_to(size)` is the only multiple of the page size in `[size, size + p)` |
| `Pages.RoundDownExact` | src/lib.rs:80-83 | `round_down_to(size)` is the only multiple of the page size in `(size - p, size]` |
| `Pages.RoundingTestVector23` | src/lib.rs:73-90 | With page size 1024, 23 rounds up to 1024 and down to 0 |
| `Pages.RoundingTestVector1024` | src/lib.rs:73-90 | 1024 rounds to 1024 both ways |
| `Pages.RoundingTestVector1025` | src/lib.rs:73-90 | 1025 rounds up to 2048 and down to 1024 |
| `Pages.AlignedRange` | src/lib.rs:145-146 | The aligned offset and aligned length used by `resident_len` (and `prefetch`, lines 222-223) form whole pages. They start in the page of `offset`, cover `[offset, offset + length)`, and end less than a page past its end |
| `Pages.AlignedRangeEnd` | src/lib.rs:145-146 | The aligned range ends exactly at `round_up_to(offset + length)` |
| `Residency.Position` | src/lib.rs:166-169 | `position(\|resident\| !resident)` gives the first index whose entry is false, or `None` exactly when every entry is true |
| `Residency.ResidentPrefixIsResident` | src/lib.rs:159-181 | The counted pages are all resident. When the count stops short, the next page is not resident |
| `Residency.ResidentPrefixUnique` | src/lib.rs:159-181 | Any count with that property is the resident prefix |
| `Residency.PrefixSplit` | src/lib.rs:159-181 | The resident prefix of `a + b` pages is the prefix of the first `a` if it stops inside them. Otherwise it is `a` plus the prefix of the next `b`. This is why batching by 32 pages gives the same count |
| `Residency.PositionIsPrefix` | src/lib.rs:166-179 | The position of the first non-resident entry of a batch is the resident prefix of the batch's pages, and `None` means all of them are resident |
| `Residency.BatchCount` | src/lib.rs:166-179 | After one batch, a non-resident page ends the count of the whole range at `pages_checked + non_resident`. Otherwise the resident prefix extends past the batch |
| `Residency.ClampedResidentBytesDebug` | src/lib.rs:183-187 | Lines 183-187 as written, in a debug build. It panics with an arithmetic overflow exactly when the resident pages end before `offset`. Otherwise it returns the intended value |
| `Residency.ClampedResidentBytesRelease` | src/lib.rs:183-187 | Lines 183-187 as written, in a release build. The result is at most `length`. When the resident pages end before `offset`, by at most `2^64 - length` bytes, the wrapped difference makes it return the whole `length` |
| `Residency.UnderflowWhenNothingResident` | src/lib.rs:183 | With no resident page and an unaligned `offset`: a debug build panics, a release build returns the whole `length`, and the intended value is 0 |
| `Residency.ClampedResidentBytesAgree` | src/lib.rs:183-187 | Where the subtraction does not go below zero, the debug build, the release build and the intended value agree |
| `Residency.ResidentLenMeaning` | src/lib.rs:119-188 | The result `r` is at most `length`. Every byte of `[offset, offset + r)` lies in a resident page. When `r < length`, the byte at `offset + r` lies in a page that is not resident |
| `Residency.FullLengthIffAllResident` | src/lib.rs:286-294 | `resident_len` returns the full `length` exactly when every byte of the request lies in a resident page. This is what the `make_resident` test expects |
| `Unix.MapFile` | src/unix.rs:22-54 | A metadata error is returned unchanged. A length above `usize::MAX` is an `Other` error without a call. An empty file gives the null mapping without a call. Otherwise exactly one `mmap` is issued, and it fails exactly when `mmap` returns `MAP_FAILED`, with the OS error. A mapping keeps the file's length and `mmap`'s address |
| `Unix.MapFileEstablishesMapping` | src/unix.rs:33-53 | Given a conforming `mmap`: the address is null exactly when the length is 0, and otherwise page-aligned, with the mapping inside the address space |
| `Unix.UnmapFile` | src/unix.rs:56-61 | One `munmap` of the region. It returns exactly when the result is 0 and otherwise panics with that result |
| `Unix.Prefetch` | src/unix.rs:88-95 | One `madvise` of the range. It returns exactly when the result is 0 and otherwise panics with that result |
| `Unix.AsUsize` | src/unix.rs:98 | The `c_long` to `usize` cast keeps values in range and turns -1 into `usize::MAX` |
| `Unix.GetPageSize` | src/unix.rs:97-105 | Returns the cast `sysconf` value exactly when it is a nonzero power of two (the test at line 102), and otherwise panics with that value |
| `Unix.RetryIsUnreachableAsWritten` | src/unix.rs:77-85 | As written, a conforming `mincore`, which returns 0 or -1, never takes the `EAGAIN` branch |
| `Unix.BusyKernelPanicsAsWritten` | src/unix.rs:77-85 | A busy kernel (-1 with `errno == EAGAIN`) fails the assertion as written, where a retry was meant |
| `Unix.NextActionAsWritten` | src/unix.rs:77-85 | The decision as written. The assertion at line 78 fails exactly when the return value is neither 0 nor `EAGAIN`. It retries exactly when the return value itself is `EAGAIN` |
| `Unix.NextAction` | src/unix.rs:77-85 | The decision as meant. Success exactly when `mincore` returns 0. Retry exactly when it returns -1 with `errno == EAGAIN`. Every other reply fails |
| `Unix.NextActionsAgree` | src/unix.rs:77-85 | The meant and the written decisions differ only on the busy kernel, which is the only reply the meant decision retries |
| `Unix.GetResident` | src/unix.rs:63-86 | Repeats the same `mincore(buffer, length)` while the kernel is busy. It stops at the first reply that is not busy. On success it fills `length / page_size` entries with the pages' residency and leaves the rest alone. On failure nothing is written, and the failing reply is one of the given ones |
| `FileBuffers.View` | src/lib.rs:265-271 | The slice handed out has the buffer's length and a non-null address inside the address space. It is the mapped address whenever there is one |
| `FileBuffers.SliceAsWritten` | src/lib.rs:268-270 | The slice as written keeps the buffer's length. It is a valid argument for `slice::from_raw_parts` exactly when the buffer is not null and lies inside the address space |
| `FileBuffers.EmptySliceAsWrittenIsInvalid` | src/lib.rs:268-270 | For an empty file the slice as written has a null address, which `slice::from_raw_parts` forbids |
| `Effects.Min` | src/lib.rs:187 | `cmp::min`, used here and at line 160: the result is at most both arguments and is one of them |
| `FileBuffers.ResidentEndFits` | src/lib.rs:183 | The product and sum `pages_resident * page_size + aligned_offset` never overflow `usize` for a request inside a mapping. So the checks a debug build makes there cannot panic |
| `Unix.AttemptsStopAtNotBusy` | src/unix.rs:77-85 | `get_resident` makes one call per busy reply and one more: every answer it counts except the last is a busy kernel, and the last is not |
| `FileBuffers.ScanCountsPrefix` | src/lib.rs:159-181 | The loop, when it returns, returns the number of resident pages before the first one that is not |
| `FileBuffers.ScanReplies` | src/lib.rs:159-181 | The loop takes one of the kernel's answers per call, in order. No answer but the last is a failure. A return means none is. A panic carries the failure that answers its last call, which is one of the given answers |
| `FileBuffers.ScanStarts` | src/lib.rs:159-164 | The loop calls `mincore` exactly when a page is left to check, and its first call asks about `min(32, num_pages - pages_checked)` pages from page `pages_checked` |
| `FileBuffers.ScanBatches` | src/lib.rs:159-164 | Every call covers 1 to 32 whole pages among the pages not yet checked, and the calls' addresses never decrease |
| `FileBuffers.ScanStopsAtNonResident` | src/lib.rs:166-174 | When some page is not resident, a count ends with the batch that holds the first such page: the `break` |
| `FileBuffers.ScanEndsWithLastBatch` | src/lib.rs:159-178 | When every page is resident, a count ends with the batch that ends where the pages end |
| `FileBuffers.OneBatchOneCall` | src/lib.rs:148-154 | A range of 1 to 32 pages takes exactly one `mincore` call when the kernel is not busy, whatever the pages' residency |
| `FileBuffers.ScanFromStart` | src/lib.rs:156-181 | The whole loop, from the first page and answer. A return is the resident prefix of the `num_pages` pages. A panic means at least one call was made, and the answer to the last call is a failure with its result and `errno`. No earlier answer is a failure, and after a return none is. Every call covers 1 to 32 whole pages of the range, at ascending addresses. There is a call exactly when the range is not empty, and the first asks about its first 32 pages, or all of them if fewer. A count short of `num_pages` ends with the batch holding the first non-resident page. A full count ends with the batch ending at the last page |
| `FileBuffers.BatchOutcome` | src/lib.rs:160-178 | From what `get_resident` reports for one batch: a failure panics with that reply. Otherwise a `Some(non_resident)` ends the count of all pages at `pages_checked + non_resident`. `None` extends the resident prefix over the batch, and the loop goes on from the next batch |
| `FileBuffers.CheckBatch` | src/lib.rs:160-178 | One pass of the loop. It issues the calls of one batch and reads the residency of its pages. The whole loop is the calls issued before, this batch's calls, and then, when all the batch's pages are resident, the rest of the loop from the next batch. A failed reply panics; a non-resident page returns `pages_checked + non_resident` |
| `FileBuffers.CountResidentPages` | src/lib.rs:156-181 | The loop's outcome and its `mincore` calls are those `ResidentScan` defines pass by pass. `ScanFromStart` states what they mean |
| `FileBuffers.FileBuffer.constructor` | src/lib.rs:110-115 | The struct `open` assembles holds the page size, address and length it is given, and is valid and not yet dropped |
| `FileBuffers.FileBuffer.Open` | src/lib.rs:94-117 | An open error or a `map_file` error is returned with no further call. Otherwise the trace is `map_file`'s. An invalid page size, including 0 and the -1 that `sysconf` reports on failure, panics after a successful `mmap`. The `mmap` reply is assumed page-aligned only when the page size is valid. When the file opens, `map_file` succeeds and the page size is valid, `open` succeeds. A success is a fresh, valid buffer with the mapping's address and length and the system page size |
| `FileBuffers.FileBuffer.CoveringRange` | src/lib.rs:145-146 | For a request inside the buffer, the aligned range covers it in whole pages and ends less than a page past it |
| `FileBuffers.FileBuffer.ResidentLen` | src/lib.rs:136-188 | `offset + length` overflowing panics. A range outside the buffer panics. An empty file returns 0 without a system call. Otherwise the result is the resident prefix of the covering pages, in bytes from `offset`, at most `length` (its meaning is `ResidentLenMeaning`). A panic inside the buffer comes only from the reply to the last `mincore` call, which is a failure; no earlier reply is one. This holds because line 183 is taken as corrected (first finding) and because a busy kernel is retried as meant (second finding; as written it fails the assertion at src/unix.rs:78). The product and sum on line 183 are proved not to overflow (`ResidentEndFits`). `mincore` is called exactly when the covering range is not empty, first on its first 32 pages or all of them if fewer. Every `mincore` covers 1 to 32 whole pages of the covering range, at ascending addresses. The calls are exactly those of `ResidentScan` over the covering pages, so `ScanFromStart`'s stop at the batch holding the first non-resident page applies to them |
| `FileBuffers.FileBuffer.CountResidentBytes` | src/lib.rs:145-187 | For a request inside a non-empty mapping: the resident prefix of the covering pages, in bytes from `offset` and at most `length`. The same `mincore` trace and panic facts as `ResidentLen`. Its calls are exactly those of `ResidentScan` over the covering pages |
| `FileBuffers.FileBuffer.Prefetch` | src/lib.rs:212-227 | Overflow and out-of-range requests panic. An empty file does nothing. Otherwise exactly one `madvise` is issued, on whole pages from the page of `offset` that cover the request and end less than a page past it. It panics exactly when `madvise` fails |
| `FileBuffers.FileBuffer.ChunkLenHint` | src/lib.rs:196-198 | The hint is the page size, a power of two that is a `usize` |
| `FileBuffers.FileBuffer.Deref` | src/lib.rs:265-271 | The slice has the buffer's length and a valid non-null address, which is the mapping's own when the file is not empty |
| `FileBuffers.FileBuffer.Drop` | src/lib.rs:257-263 | Drop issues exactly one `munmap` of the original mapping when the buffer is not null and none otherwise. It panics exactly when that `munmap` fails. Afterwards the buffer is dropped and at most one unmap has happened |
| `FileBuffers.FileBuffer.Leak` | src/lib.rs:239-247 | Leak returns the mapped bytes as a valid slice and nulls the buffer. The drop that follows issues no `munmap`, so the mapping is never unmapped |

Together, `Leak` and `Drop` give at most one `munmap` per mapping:

- `Drop` requires a live buffer and leaves it dropped;
- `Leak` ends in a drop of a null buffer;
- `Valid` keeps `unmaps <= 1`.

## Left out

- The Windows and macOS back ends, and the example programs, including `try_slice` in the examples.
- The contents of the mapped bytes: slices are an address and a length.
- Thread safety (`Send`/`Sync`) and `thread::yield_now` before a retry.
- Opening the file by path. `open` takes the outcome of opening the file. `map_file` sees only the outcome of reading the file's metadata.
- Unix.GetResident: the source retries by tail recursion; the model retries in a loop. The kernel is assumed to stop being busy eventually: after the given replies run out, `mincore` succeeds.
- Unix.GetResident: only the low bit of `mincore`'s residency bytes is modelled, as a `bool`.
- Residency is a snapshot: which pages are resident is fixed during one `resident_len` call, and eviction in between is not modelled.
- The `isize` casts of the pointer offsets (lines 162 and 225). In-bounds offsets of a valid mapping are assumed to fit.
- FileBuffers.FileBuffer.ResidentLen and FileBuffers.FileBuffer.Prefetch: these follow a debug build, where `offset + length` overflowing panics. A release build would wrap and might pass the bounds check; that case is not modelled.
- FileBuffers.FileBuffer.ResidentLen: it returns the corrected value of src/lib.rs:183 (0 when the resident pages end before `offset`). The code as written panics there in a debug build and returns `length` in a release build; that behaviour is modelled separately by `Residency.ClampedResidentBytesDebug` and `Residency.ClampedResidentBytesRelease` (first finding).
- Unix.GetResident: it retries on a busy kernel (`-1` with `errno == EAGAIN`) as meant, not as written (second finding). The code as written fails the assertion at src/unix.rs:78 on such a reply; that is modelled separately by `Unix.NextActionAsWritten`.
- FileBuffers.FileBuffer.Deref: for an empty file it returns a dangling non-null address (third finding). The code as written passes the null pointer to `slice::from_raw_parts`; that is modelled separately by `FileBuffers.SliceAsWritten`.
- FileBuffers.FileBuffer.Leak: like `Deref`, it returns the corrected non-null slice for an empty file (third finding). The as-written slice is `FileBuffers.SliceAsWritten`.
- FileBuffers.FileBuffer.Open: `map_file` runs before `get_page_size`. When the page size is invalid, the panic leaks the new mapping: nothing unmaps it. The model records the `mmap` in the trace but does not model unwinding.
- Unix.MapFile: the file length is a natural number and is compared with `usize::MAX`, so the `u64` type of the metadata plays no part.
- FileBuffers.View: the rule that a slice's length be at most `isize::MAX` bytes is not modelled. Only non-null and inside the address space are.
- The `mmap` protection and flags (`PROT_READ`, `MAP_PRIVATE`) and `MADV_WILLNEED` are not modelled. Only the addresses and lengths of the calls are.

## Findings

| source | as written | input that shows it | evidently intended | confidence | as-written member | corrected member |
|---|---|---|---|---|---|---|
| src/lib.rs:183 | `pages_resident * page_size + aligned_offset - offset` goes below zero when no page is resident and `offset` is not page-aligned. A debug build panics; a release build wraps and `min` then returns the whole `length` | page size 4096, `resident_len(1, 10)` on a file whose first page is not resident | 0 bytes resident | not executed | `Residency.UnderflowWhenNothingResident` (about `Residency.ClampedResidentBytesDebug` and `Residency.ClampedResidentBytesRelease`) | `Residency.ClampedResidentBytes`, used by `FileBuffers.FileBuffer.CountResidentBytes` for `FileBuffers.FileBuffer.ResidentLen`, whose meaning `Residency.ResidentLenMeaning` proves |
| src/unix.rs:78-82 | `mincore`'s return value is compared with `EAGAIN`, but `mincore` returns -1 and reports `EAGAIN` through `errno`. The retry is dead code and a busy kernel fails the assertion | `mincore` returns -1 with `errno == EAGAIN` | retry the call | not executed | `Unix.BusyKernelPanicsAsWritten` and `Unix.RetryIsUnreachableAsWritten` (about `Unix.NextActionAsWritten`) | `Unix.NextActionsAgree` (about `Unix.NextAction`), used by `Unix.GetResident` |
| src/lib.rs:240, src/lib.rs:269 | `slice::from_raw_parts(self.buffer, self.length)` receives a null pointer for an empty file, which the function forbids even for length 0 | `deref` or `leak` on a buffer opened from an empty file | a dangling non-null pointer for the empty slice | not executed | `FileBuffers.EmptySliceAsWrittenIsInvalid` (about `FileBuffers.SliceAsWritten`) | `FileBuffers.View`, used by `FileBuffers.FileBuffer.Deref` and `FileBuffers.FileBuffer.Leak` |

=== FILE: effects.dfy ===
/** What an operation of the library can do besides returning a value: panic
    (a failed `assert!` or an arithmetic overflow in a debug build), fail with an
    `io::Error`, and issue system calls. */
module Effects {

  datatype Option<T> = None | Some(value: T)

  /** Why a call panicked. */
  datatype PanicReason =
    | RangeOutsideBuffer       // `offset + length <= self.length` does not hold
    | ArithmeticOverflow       // a debug build checks every `usize` addition
    | InvalidPageSize(size: nat)
    | MincoreFailed(result: int, errno: int)
    | MunmapFailed(result: int)
    | MadviseFailed(result: int)

  /** A call either returns or panics; a panic is not an error value a caller can handle. */
  datatype Outcome<T> = Return(value: T) | Panic(reason: PanicReason)

  /** An `io::Error`: either the OS error number or a message of the library's own. */
  datatype IoError = Os(errno: int) | Other(message: string)

  /** `io::Result<T>`. */
  datatype IoResult<T> = Ok(value: T) | Err(error: IoError)

  /** The system calls the library issues, with their address and length arguments
      (addresses are plain numbers). */
  datatype Syscall =
    | Mmap(length: nat)
    | Munmap(address: nat, length: nat)
    | Mincore(address: nat, length: nat)
    | Madvise(address: nat, length: nat)

  /** A value together with the system calls issued, in order, to compute it. */
  datatype Traced<T> = Traced(value: T, calls: seq<Syscall>)

  /** The same system call issued `n` times in a row. */
  function Repeat(c: Syscall, n: nat): (s: seq<Syscall>)
    ensures |s| == n && forall i :: 0 <= i < n ==> s[i] == c
  {
    seq(n, _ => c)
  }

  function Min(a: nat, b: nat): (r: nat)
    ensures r <= a && r <= b && (r == a || r == b)
  {
    if a <= b then a else b
  }
}

=== FILE: file_buffer.dfy ===
/** `FileBuffer`: a read-only memory map of a whole file, with queries for which
    part of it is resident in physical memory, advice to load a range, and the
    two ways its life ends: dropped (unmapped) or leaked (kept mapped for good). */
module FileBuffers {
  import opened Usize
  import opened Effects
  import opened Pages
  import opened Residency
  import Unix

  /** The number of pages `resident_len` asks about in one `mincore` call. */
  const RESIDENCY_BATCH: nat := 32

  /** A byte slice `&[u8]`: a start address and a length. */
  datatype Slice = Slice(address: nat, length: nat)

  /** What `slice::from_raw_parts` demands of its arguments: a non-null pointer,
      even when the slice is empty, to a region inside the address space. */
  predicate ValidSliceParts(s: Slice) {
    s.address != 0 && s.address + s.length <= MODULUS
  }

  /** `NonNull::dangling()` for bytes: the non-null address an empty slice may use. */
  const DANGLING: nat := 1

  /** The slice `deref` and `leak` build from the buffer's address and length, as
      written: the null address of an empty file is passed on unchanged. */
  function SliceAsWritten(buffer: nat, length: nat): (s: Slice)
    // a valid slice exactly when the buffer is not null and lies inside the address space
    ensures ValidSliceParts(s) <==> buffer != 0 && buffer + length <= MODULUS
    ensures s.length == length
  {
    Slice(buffer, length)
  }

  /** For an empty file the slice as written has the null address, which
      `from_raw_parts` forbids even for a slice of length zero. */
  lemma EmptySliceAsWrittenIsInvalid()
    ensures !ValidSliceParts(SliceAsWritten(0, 0))
  {
  }

  /** The slice meant by `deref` and `leak`: the mapped bytes, and a dangling
      non-null address when there are none. */
  function View(buffer: nat, length: nat): (s: Slice)
    requires (buffer == 0 ==> length == 0) && buffer + length <= MODULUS
    ensures ValidSliceParts(s) && s.length == length
    ensures buffer != 0 ==> s == SliceAsWritten(buffer, length)
  {
    Slice(if buffer == 0 then DANGLING else buffer, length)
  }

  /** A request inside a mapping can be aligned to pages without leaving `usize`. */
  lemma InBoundsIsAlignable(pageSize: nat, buffer: nat, total: nat, offset: nat, length: nat)
    requires IsPageSize(pageSize) && buffer % pageSize == 0
    requires (buffer == 0 <==> total == 0) && buffer + total <= MODULUS
    requires offset + length <= total
    ensures AlignableRange(offset, length, pageSize)
    ensures offset + length + (pageSize - 1) <= MAX
  {
    PageSizePositive(pageSize);
    if buffer != 0 && buffer < pageSize {
      ModUnique(buffer, pageSize, 0, buffer);
    }
    assert offset % pageSize <= offset by {
      if offset < pageSize {
        ModUnique(offset, pageSize, 0, offset);
      }
    }
  }

  /** `k` pages past a page-aligned address is page-aligned, in page `k` after it. */
  lemma PageStep(base: nat, pageSize: nat, k: nat)
    requires pageSize > 0 && base % pageSize == 0
    ensures (base + k * pageSize) % pageSize == 0
    ensures PageIndex(base + k * pageSize, pageSize) == PageIndex(base, pageSize) + k
  {
    FirstByteOfPage(base, pageSize, k);
    ModUnique(base, pageSize, base / pageSize, 0);
    assert base + k * pageSize == pageSize * (base / pageSize + k) + 0;
    ModUnique(base + k * pageSize, pageSize, base / pageSize + k, 0);
  }

  /** `k` whole pages are `k` pages. */
  lemma WholePages(k: nat, pageSize: nat)
    requires pageSize > 0
    ensures (k * pageSize) % pageSize == 0 && (k * pageSize) / pageSize == k
  {
    ModUnique(k * pageSize, pageSize, k, 0);
  }

  /** Checking `b` more pages after `a` stays inside `n` pages. */
  lemma PagesWithin(a: nat, b: nat, n: nat, pageSize: nat)
    requires a + b <= n
    ensures a * pageSize + b * pageSize == (a + b) * pageSize <= n * pageSize
  {
    assert n * pageSize == (a + b) * pageSize + (n - (a + b)) * pageSize;
  }

  /** In a debug build `pages_resident * page_size + aligned_offset` (src/lib.rs:183)
      is checked for overflow: for a request inside a mapping it never overflows,
      because any number of the covering pages ends inside them, and they end
      inside the address space. */
  lemma ResidentEndFits(pages: nat, pageSize: nat, buffer: nat, total: nat,
                        range: PageRange, offset: nat, length: nat)
    requires IsPageSize(pageSize) && buffer % pageSize == 0
    requires (buffer == 0 <==> total == 0) && buffer + total <= MODULUS
    requires offset + length <= total
    requires Covers(range, offset, length, pageSize)
    requires range.start + range.length < offset + length + pageSize
    requires pages <= PageIndex(range.length, pageSize)
    ensures PagesToBytes(pages, pageSize) + range.start <= MAX
  {
    InBoundsIsAlignable(pageSize, buffer, total, offset, length);
    var numPages := PageIndex(range.length, pageSize);
    WholeMultiple(range.length, pageSize);
    PagesWithin(pages, numPages - pages, numPages, pageSize);
  }

  /** A `mincore` call of `resident_len`: 1 to 32 whole pages inside `[lo, hi)`. */
  predicate MincoreBatch(c: Syscall, pageSize: nat, lo: nat, hi: nat) {
    c.Mincore? && pageSize > 0 && c.address % pageSize == 0 && c.length % pageSize == 0 &&
    pageSize <= c.length <= RESIDENCY_BATCH * pageSize &&
    lo <= c.address && c.address + c.length <= hi
  }

  /** `mincore` calls at addresses that never decrease. */
  predicate AscendingMincore(calls: seq<Syscall>) {
    forall i, j :: 0 <= i < j < |calls| ==>
      calls[i].Mincore? && calls[j].Mincore? && calls[i].address <= calls[j].address
  }

  /** The arithmetic of one batch: `pagesToCheck` pages from `pagesChecked` pages
      past `base` are whole pages, start on page `pagesChecked` after `base`'s page,
      and end inside the `numPages` pages from `base`. */
  lemma BatchFacts(base: nat, pageSize: nat, pagesChecked: nat, pagesToCheck: nat, numPages: nat)
    requires pageSize > 0 && base % pageSize == 0
    requires 0 < pagesToCheck <= RESIDENCY_BATCH && pagesChecked + pagesToCheck <= numPages
    ensures var checkBuffer, checkLength := base + pagesChecked * pageSize, pagesToCheck * pageSize;
            checkBuffer % pageSize == 0 && checkLength % pageSize == 0 &&
            checkLength / pageSize == pagesToCheck &&
            PageIndex(checkBuffer, pageSize) == PageIndex(base, pageSize) + pagesChecked &&
            pageSize <= checkLength <= RESIDENCY_BATCH * pageSize &&
            checkBuffer + checkLength == base + (pagesChecked + pagesToCheck) * pageSize &&
            checkBuffer + checkLength <= base + numPages * pageSize
  {
    PagesWithin(pagesChecked, pagesToCheck, numPages, pageSize);
    PageStep(base, pageSize, pagesChecked);
    WholePages(pagesToCheck, pageSize);
    PagesAtLeastOne(pagesToCheck, pageSize);
    PagesWithin(pagesToCheck, RESIDENCY_BATCH - pagesToCheck, RESIDENCY_BATCH, pageSize);
  }

  /** The first batch, counted in bytes: 32 pages, or all of them when there are fewer. */
  lemma FirstBatchLength(n: nat, pageSize: nat)
    ensures Min(RESIDENCY_BATCH, n) * pageSize == Min(RESIDENCY_BATCH * pageSize, n * pageSize)
  {
    if n <= RESIDENCY_BATCH {
      PagesWithin(n, RESIDENCY_BATCH - n, RESIDENCY_BATCH, pageSize);
    } else {
      PagesWithin(RESIDENCY_BATCH, n - RESIDENCY_BATCH, n, pageSize);
    }
  }

  /** The page `k` of a batch of `count` pages that starts `done` pages past `base`
      lies inside that batch. */
  lemma PageInBatch(base: nat, pageSize: nat, done: nat, k: nat, count: nat)
    requires pageSize > 0 && k < count
    ensures base + done * pageSize <= base + (done + k) * pageSize
    ensures base + (done + k) * pageSize < base + done * pageSize + count * pageSize
  {
    PagesWithin(done, k, done + k, pageSize);
    PagesWithin(done + k, count - k, done + count, pageSize);
    PagesWithin(done, count, done + count, pageSize);
    PagesAtLeastOne(count - k, pageSize);
  }

  /** `c` is a `mincore` request whose range holds the page `page` pages past `base`. */
  predicate HoldsPage(c: Syscall, base: nat, pageSize: nat, page: nat) {
    c.Mincore? && c.address <= base + page * pageSize < c.address + c.length
  }

  /** `c` is a `mincore` request whose range ends where the first `pages` pages
      from `base` end. */
  predicate EndsAtPage(c: Syscall, base: nat, pageSize: nat, pages: nat) {
    c.Mincore? && c.address + c.length == base + pages * pageSize
  }

  /** What the loop of `resident_len` does once `checked` of the `numPages` pages
      from the page-aligned address `base` are known to be resident, when `prefix`
      of those pages are resident before the first one that is not and the
      kernel's answers start at `replies[next]`: its outcome (the number of
      resident pages, or a panic) and the `mincore` calls it makes. Each pass asks
      about the next batch of at most 32 pages, as often as the kernel is busy; a
      failure panics, a batch holding a page that is not resident ends the count,
      and a batch of resident pages moves on to the next batch. */
  function ResidentScan(prefix: nat, pageSize: nat, base: nat, numPages: nat,
                        replies: seq<Unix.MincoreReply>, checked: nat, next: nat): Traced<Outcome<nat>>
    decreases numPages - checked, 1
  {
    if checked >= numPages then Traced(Return(checked), [])
    else ScanBatch(prefix, pageSize, base, numPages, replies, checked, next)
  }

  /** One pass of `ResidentScan`, once some page is left to check. */
  function ScanBatch(prefix: nat, pageSize: nat, base: nat, numPages: nat,
                     replies: seq<Unix.MincoreReply>, checked: nat, next: nat): Traced<Outcome<nat>>
    requires checked < numPages
    decreases numPages - checked, 0
  {
    var count := Min(RESIDENCY_BATCH, numPages - checked);
    var attempts := Unix.Attempts(replies, next);
    var batch := Repeat(Mincore(base + checked * pageSize, count * pageSize), attempts);
    var reply := Unix.ReplyAt(replies, next + attempts - 1);
    if Unix.NextAction(reply) == Unix.Failed then
      Traced(Panic(MincoreFailed(reply.result, reply.errno)), batch)
    else if prefix < checked + count then
      Traced(Return(prefix), batch)
    else
      var rest := ResidentScan(prefix, pageSize, base, numPages, replies, checked + count, next + attempts);
      Traced(rest.value, batch + rest.calls)
  }

  /** A trace whose tail is a batch followed by the rest is the calls so far and
      that batch, followed by the rest. */
  lemma JoinTraced<T>(whole: Traced<T>, done: seq<Syscall>, step: Traced<T>, batch: seq<Syscall>, rest: Traced<T>)
    requires whole == Traced(step.value, done + step.calls)
    requires step == Traced(rest.value, batch + rest.calls)
    ensures whole == Traced(rest.value, (done + batch) + rest.calls)
  {
    assert done + (batch + rest.calls) == (done + batch) + rest.calls;
  }

  /** The loop counts the resident pages before the first one that is not. */
  lemma {:induction false} ScanCountsPrefix(prefix: nat, pageSize: nat, base: nat, numPages: nat,
                                            replies: seq<Unix.MincoreReply>, checked: nat, next: nat)
    requires checked <= prefix <= numPages
    ensures var scan := ResidentScan(prefix, pageSize, base, numPages, replies, checked, next);
            scan.value.Return? ==> scan.value.value == prefix
    decreases numPages - checked
  {
    if checked < numPages {
      var count := Min(RESIDENCY_BATCH, numPages - checked);
      if checked + count <= prefix {
        ScanCountsPrefix(prefix, pageSize, base, numPages, replies, checked + count,
                         next + Unix.Attempts(replies, next));
      }
    }
  }

  /** Busy replies and then one that is not a failure, followed by replies none
      of which fails (before the last): none of them all fails (before the last). */
  lemma JoinReplies(replies: seq<Unix.MincoreReply>, next: nat, attempts: nat, used: nat)
    requires 0 < attempts && next + attempts <= used
    requires forall k :: next <= k < next + attempts - 1 ==> Unix.NextAction(Unix.ReplyAt(replies, k)) == Unix.Busy
    requires Unix.NextAction(Unix.ReplyAt(replies, next + attempts - 1)) != Unix.Failed
    ensures (forall k :: next + attempts <= k < used - 1 ==> Unix.NextAction(Unix.ReplyAt(replies, k)) != Unix.Failed) ==>
              forall k :: next <= k < used - 1 ==> Unix.NextAction(Unix.ReplyAt(replies, k)) != Unix.Failed
    ensures (forall k :: next + attempts <= k < used ==> Unix.NextAction(Unix.ReplyAt(replies, k)) != Unix.Failed) ==>
              forall k :: next <= k < used ==> Unix.NextAction(Unix.ReplyAt(replies, k)) != Unix.Failed
  {
  }

  /** The loop takes one of the kernel's answers per call, from `replies[next]` on.
      Only the answer to its last call can be a failure, and a panic comes from
      that answer; a count comes from answers none of which is a failure. */
  lemma {:induction false} ScanReplies(prefix: nat, pageSize: nat, base: nat, numPages: nat,
                                       replies: seq<Unix.MincoreReply>, checked: nat, next: nat)
    ensures var scan := ResidentScan(prefix, pageSize, base, numPages, replies, checked, next);
            var used := next + |scan.calls|;
            (forall k :: next <= k < used - 1 ==> Unix.NextAction(Unix.ReplyAt(replies, k)) != Unix.Failed) &&
            (scan.value.Return? ==> forall k :: next <= k < used ==> Unix.NextAction(Unix.ReplyAt(replies, k)) != Unix.Failed) &&
            (scan.value.Panic? ==> next < used <= |replies| && Unix.NextAction(replies[used - 1]) == Unix.Failed &&
                                   scan.value.reason == MincoreFailed(replies[used - 1].result, replies[used - 1].errno))
    decreases numPages - checked
  {
    if checked < numPages {
      var count := Min(RESIDENCY_BATCH, numPages - checked);
      var attempts := Unix.Attempts(replies, next);
      Unix.AttemptsStopAtNotBusy(replies, next);
      if Unix.NextAction(Unix.ReplyAt(replies, next + attempts - 1)) != Unix.Failed && checked + count <= prefix {
        var rest := ResidentScan(prefix, pageSize, base, numPages, replies, checked + count, next + attempts);
        ScanReplies(prefix, pageSize, base, numPages, replies, checked + count, next + attempts);
        JoinReplies(replies, next, attempts, next + attempts + |rest.calls|);
      }
    }
  }

  /** Repeats of one batch inside `[lo, hi)`, followed by ascending batches from
      `mid` on that the repeated batch does not pass: ascending batches inside
      `[lo, hi)`, the first of them the repeated one. */
  lemma JoinBatches(a: seq<Syscall>, b: seq<Syscall>, request: Syscall, pageSize: nat, lo: nat, mid: nat, hi: nat)
    requires forall i :: 0 <= i < |a| ==> a[i] == request
    requires MincoreBatch(request, pageSize, lo, hi) && lo <= mid && request.address <= mid
    requires forall i :: 0 <= i < |b| ==> MincoreBatch(b[i], pageSize, mid, hi)
    requires AscendingMincore(b)
    ensures |a| > 0 ==> (a + b)[0] == request
    ensures forall i :: 0 <= i < |a + b| ==> MincoreBatch((a + b)[i], pageSize, lo, hi)
    ensures AscendingMincore(a + b)
  {
    forall i | 0 <= i < |a + b|
      ensures MincoreBatch((a + b)[i], pageSize, lo, hi)
    {
      if i >= |a| {
        assert (a + b)[i] == b[i - |a|];
      }
    }
    forall i, j | 0 <= i < j < |a + b|
      ensures (a + b)[i].Mincore? && (a + b)[j].Mincore? && (a + b)[i].address <= (a + b)[j].address
    {
      if j >= |a| {
        assert (a + b)[j] == b[j - |a|];
        if i >= |a| {
          assert (a + b)[i] == b[i - |a|];
        }
      }
    }
  }

  /** Repeats of one batch inside `[lo, hi)`: ascending batches inside `[lo, hi)`. */
  lemma RepeatBatches(request: Syscall, n: nat, pageSize: nat, lo: nat, hi: nat)
    requires MincoreBatch(request, pageSize, lo, hi)
    ensures n > 0 ==> Repeat(request, n)[0] == request
    ensures forall i :: 0 <= i < |Repeat(request, n)| ==> MincoreBatch(Repeat(request, n)[i], pageSize, lo, hi)
    ensures AscendingMincore(Repeat(request, n))
  {
  }

  /** The loop's calls: none when there are no pages, otherwise first the batch of
      up to 32 pages from page `checked`. */
  lemma ScanStarts(prefix: nat, pageSize: nat, base: nat, numPages: nat,
                   replies: seq<Unix.MincoreReply>, checked: nat, next: nat)
    ensures var calls := ResidentScan(prefix, pageSize, base, numPages, replies, checked, next).calls;
            (|calls| > 0 <==> checked < numPages) &&
            (|calls| > 0 ==> calls[0] == Mincore(base + checked * pageSize, Min(RESIDENCY_BATCH, numPages - checked) * pageSize))
  {
    if checked < numPages {
      var count := Min(RESIDENCY_BATCH, numPages - checked);
      var attempts := Unix.Attempts(replies, next);
      var batch := Repeat(Mincore(base + checked * pageSize, count * pageSize), attempts);
      var rest := ResidentScan(prefix, pageSize, base, numPages, replies, checked + count, next + attempts);
      assert (batch + rest.calls)[0] == batch[0];
    }
  }

  /** The loop's calls are each 1 to 32 whole pages inside the unchecked pages,
      at addresses that never decrease. */
  lemma {:induction false} ScanBatches(prefix: nat, pageSize: nat, base: nat, numPages: nat,
                                       replies: seq<Unix.MincoreReply>, checked: nat, next: nat)
    requires pageSize > 0 && base % pageSize == 0 && checked <= numPages
    ensures var calls := ResidentScan(prefix, pageSize, base, numPages, replies, checked, next).calls;
            (forall i :: 0 <= i < |calls| ==> MincoreBatch(calls[i], pageSize, base + checked * pageSize, base + numPages * pageSize)) &&
            AscendingMincore(calls)
    decreases numPages - checked
  {
    if checked < numPages {
      var count := Min(RESIDENCY_BATCH, numPages - checked);
      var attempts := Unix.Attempts(replies, next);
      var request := Mincore(base + checked * pageSize, count * pageSize);
      var batch := Repeat(request, attempts);
      var reply := Unix.ReplyAt(replies, next + attempts - 1);
      BatchFacts(base, pageSize, checked, count, numPages);
      if Unix.NextAction(reply) == Unix.Failed || prefix < checked + count {
        RepeatBatches(request, attempts, pageSize, base + checked * pageSize, base + numPages * pageSize);
      } else {
        var rest := ResidentScan(prefix, pageSize, base, numPages, replies, checked + count, next + attempts);
        ScanBatches(prefix, pageSize, base, numPages, replies, checked + count, next + attempts);
        JoinBatches(batch, rest.calls, request, pageSize, base + checked * pageSize,
                    base + (checked + count) * pageSize, base + numPages * pageSize);
      }
    }
  }

  /** The last of the calls `b` is the last of `a + b`. */
  lemma LastOfJoin(a: seq<Syscall>, b: seq<Syscall>)
    requires |b| > 0
    ensures (a + b)[|a + b| - 1] == b[|b| - 1]
  {
  }

  /** Nothing after `a` leaves its last call the last. */
  lemma LastOfJoinEmpty(a: seq<Syscall>)
    requires |a| > 0
    ensures |a + []| > 0 && (a + [])[|a + []| - 1] == a[|a| - 1]
  {
  }

  /** When a page is not resident, a count ends with the batch holding the first
      such page. */
  lemma {:induction false} ScanStopsAtNonResident(prefix: nat, pageSize: nat, base: nat, numPages: nat,
                                                  replies: seq<Unix.MincoreReply>, checked: nat, next: nat)
    requires pageSize > 0 && checked <= prefix < numPages
    ensures var scan := ResidentScan(prefix, pageSize, base, numPages, replies, checked, next);
            scan.value.Return? ==>
              |scan.calls| > 0 && HoldsPage(scan.calls[|scan.calls| - 1], base, pageSize, prefix)
    decreases numPages - checked
  {
    var count := Min(RESIDENCY_BATCH, numPages - checked);
    var attempts := Unix.Attempts(replies, next);
    var request := Mincore(base + checked * pageSize, count * pageSize);
    var batch := Repeat(request, attempts);
    var reply := Unix.ReplyAt(replies, next + attempts - 1);
    if Unix.NextAction(reply) != Unix.Failed {
      if prefix < checked + count {
        PageInBatch(base, pageSize, checked, prefix - checked, count);
        assert HoldsPage(batch[|batch| - 1], base, pageSize, prefix);
      } else {
        var rest := ResidentScan(prefix, pageSize, base, numPages, replies, checked + count, next + attempts);
        ScanStopsAtNonResident(prefix, pageSize, base, numPages, replies, checked + count, next + attempts);
        if rest.value.Return? {
          LastOfJoin(batch, rest.calls);
        }
      }
    }
  }

  /** When every page is resident, a count ends with a batch ending where the
      pages end. */
  lemma {:induction false} ScanEndsWithLastBatch(pageSize: nat, base: nat, numPages: nat,
                                                 replies: seq<Unix.MincoreReply>, checked: nat, next: nat)
    requires pageSize > 0 && checked < numPages
    ensures var scan := ResidentScan(numPages, pageSize, base, numPages, replies, checked, next);
            scan.value.Return? ==>
              |scan.calls| > 0 && EndsAtPage(scan.calls[|scan.calls| - 1], base, pageSize, numPages)
    decreases numPages - checked
  {
    var count := Min(RESIDENCY_BATCH, numPages - checked);
    var attempts := Unix.Attempts(replies, next);
    var request := Mincore(base + checked * pageSize, count * pageSize);
    var batch := Repeat(request, attempts);
    var reply := Unix.ReplyAt(replies, next + attempts - 1);
    if Unix.NextAction(reply) != Unix.Failed {
      var rest := ResidentScan(numPages, pageSize, base, numPages, replies, checked + count, next + attempts);
      if checked + count < numPages {
        ScanEndsWithLastBatch(pageSize, base, numPages, replies, checked + count, next + attempts);
        if rest.value.Return? {
          LastOfJoin(batch, rest.calls);
        }
      } else {
        assert EndsAtPage(request, base, pageSize, numPages) by {
          PagesWithin(checked, count, numPages, pageSize);
        }
        assert rest.calls == [];
        LastOfJoinEmpty(batch);
      }
    }
  }

  /** What `ResidentScan` says about the whole loop, from the first page and the
      first answer on: it counts the resident prefix, panics only on the answer to
      its last call, asks about whole batches of pages in ascending order starting
      with the first, and stops with the batch holding the first page that is not
      resident, or with the last batch. */
  lemma {:induction false} ScanFromStart(resident: nat -> bool, pageSize: nat, base: nat, numPages: nat, length: nat,
                                         replies: seq<Unix.MincoreReply>, r: Outcome<nat>, calls: seq<Syscall>)
    requires pageSize > 0 && base % pageSize == 0 && length == numPages * pageSize
    requires Traced(r, calls) ==
               ResidentScan(ResidentPrefix(resident, PageIndex(base, pageSize), numPages), pageSize, base, numPages, replies, 0, 0)
    ensures r.Return? ==> r.value == ResidentPrefix(resident, PageIndex(base, pageSize), numPages)
    ensures r.Panic? ==> 0 < |calls| <= |replies| && Unix.NextAction(replies[|calls| - 1]) == Unix.Failed &&
                         r.reason == MincoreFailed(replies[|calls| - 1].result, replies[|calls| - 1].errno)
    ensures forall k :: 0 <= k < |calls| - 1 ==> Unix.NextAction(Unix.ReplyAt(replies, k)) != Unix.Failed
    ensures r.Return? ==> forall k :: 0 <= k < |calls| ==> Unix.NextAction(Unix.ReplyAt(replies, k)) != Unix.Failed
    ensures forall i :: 0 <= i < |calls| ==> MincoreBatch(calls[i], pageSize, base, base + length)
    ensures AscendingMincore(calls)
    ensures |calls| > 0 <==> length > 0
    ensures |calls| > 0 ==> calls[0] == Mincore(base, Min(RESIDENCY_BATCH * pageSize, length))
    ensures r.Return? && r.value < numPages ==> |calls| > 0 && HoldsPage(calls[|calls| - 1], base, pageSize, r.value)
    ensures r.Return? && 0 < r.value == numPages ==> |calls| > 0 && EndsAtPage(calls[|calls| - 1], base, pageSize, numPages)
  {
    var prefix := ResidentPrefix(resident, PageIndex(base, pageSize), numPages);
    ScanCountsPrefix(prefix, pageSize, base, numPages, replies, 0, 0);
    ScanReplies(prefix, pageSize, base, numPages, replies, 0, 0);
    ScanStarts(prefix, pageSize, base, numPages, replies, 0, 0);
    ScanBatches(prefix, pageSize, base, numPages, replies, 0, 0);
    FirstBatchLength(numPages, pageSize);
    if numPages > 0 {
      PagesAtLeastOne(numPages, pageSize);
    }
    if prefix < numPages {
      ScanStopsAtNonResident(prefix, pageSize, base, numPages, replies, 0, 0);
    } else if 0 < numPages {
      ScanEndsWithLastBatch(pageSize, base, numPages, replies, 0, 0);
    }
  }

  /** Up to 32 pages take one `mincore` call when the kernel is not busy. */
  lemma OneBatchOneCall(prefix: nat, pageSize: nat, base: nat, numPages: nat, replies: seq<Unix.MincoreReply>)
    requires 0 < numPages <= RESIDENCY_BATCH && prefix <= numPages
    requires Unix.NextAction(Unix.ReplyAt(replies, 0)) != Unix.Busy
    ensures |ResidentScan(prefix, pageSize, base, numPages, replies, 0, 0).calls| == 1
  {
    var attempts := Unix.Attempts(replies, 0);
    assert attempts == 1;
    var batch := Repeat(Mincore(base, numPages * pageSize), attempts);
    assert Min(RESIDENCY_BATCH, numPages) == numPages;
    assert ResidentScan(prefix, pageSize, base, numPages, replies, numPages, attempts).calls == [];
    assert batch + [] == batch;
  }

  /** One step of `ResidentScan`, once the calls of its batch are known. */
  lemma ScanUnfolds(prefix: nat, pageSize: nat, base: nat, numPages: nat,
                    replies: seq<Unix.MincoreReply>, checked: nat, next: nat, batch: seq<Syscall>)
    requires checked < numPages
    requires batch == Repeat(Mincore(base + checked * pageSize, Min(RESIDENCY_BATCH, numPages - checked) * pageSize),
                             Unix.Attempts(replies, next))
    ensures var count := Min(RESIDENCY_BATCH, numPages - checked);
            var after := next + Unix.Attempts(replies, next);
            var reply := Unix.ReplyAt(replies, after - 1);
            var scan := ResidentScan(prefix, pageSize, base, numPages, replies, checked, next);
            var rest := ResidentScan(prefix, pageSize, base, numPages, replies, checked + count, after);
            (Unix.NextAction(reply) == Unix.Failed ==> scan == Traced(Panic(MincoreFailed(reply.result, reply.errno)), batch)) &&
            (Unix.NextAction(reply) != Unix.Failed && prefix < checked + count ==> scan == Traced(Return(prefix), batch)) &&
            (Unix.NextAction(reply) != Unix.Failed && checked + count <= prefix ==> scan == Traced(rest.value, batch + rest.calls))
  {
  }

  /** What one pass of the loop finds, from the answers it took and the residency
      entries it read: a failure panics; otherwise the first entry reported as not
      resident ends the count, and a batch of resident pages leaves the rest of the
      loop to do. */
  lemma BatchOutcome(resident: nat -> bool, pageSize: nat, base: nat, numPages: nat,
                     pagesChecked: nat, pagesToCheck: nat, replies: seq<Unix.MincoreReply>, next: nat,
                     after: nat, batch: seq<Syscall>, filled: bool, window: seq<bool>, nonResident: Option<nat>)
    requires pageSize > 0
    requires pagesChecked < numPages && pagesToCheck == Min(RESIDENCY_BATCH, numPages - pagesChecked)
    requires ResidentPrefix(resident, PageIndex(base, pageSize), pagesChecked) == pagesChecked
    requires after == next + Unix.Attempts(replies, next)
    requires batch == Repeat(Mincore(base + pagesChecked * pageSize, pagesToCheck * pageSize), after - next)
    requires filled <==> Unix.NextAction(Unix.ReplyAt(replies, after - 1)) == Unix.Filled
    requires !filled ==> after - 1 < |replies| && Unix.NextAction(replies[after - 1]) == Unix.Failed
    requires filled ==> pagesToCheck <= |window| &&
                        Unix.FilledFrom(window, resident, PageIndex(base, pageSize) + pagesChecked, pagesToCheck)
    requires nonResident == if filled then Position(window[..pagesToCheck]) else None
    ensures var prefix := ResidentPrefix(resident, PageIndex(base, pageSize), numPages);
            var scan := ResidentScan(prefix, pageSize, base, numPages, replies, pagesChecked, next);
            var rest := ResidentScan(prefix, pageSize, base, numPages, replies, pagesChecked + pagesToCheck, after);
            (!filled ==>
               after - 1 < |replies| && scan == Traced(Panic(MincoreFailed(replies[after - 1].result, replies[after - 1].errno)), batch)) &&
            (filled && nonResident.Some? ==> scan == Traced(Return(pagesChecked + nonResident.value), batch)) &&
            (filled && nonResident.None? ==>
               ResidentPrefix(resident, PageIndex(base, pageSize), pagesChecked + pagesToCheck) == pagesChecked + pagesToCheck &&
               scan == Traced(rest.value, batch + rest.calls))
  {
    var prefix := ResidentPrefix(resident, PageIndex(base, pageSize), numPages);
    ScanUnfolds(prefix, pageSize, base, numPages, replies, pagesChecked, next, batch);
    if filled {
      BatchCount(window, resident, PageIndex(base, pageSize), pagesChecked, pagesToCheck, numPages);
    } else {
      assert Unix.ReplyAt(replies, after - 1) == replies[after - 1];
    }
  }

  /** One pass of the loop of `resident_len`: ask `mincore` about the
      `pagesToCheck` pages that start `pagesChecked` pages past `base`, as often as
      the kernel is busy, taking its answers from `replies[next]` on, and find the
      first page of the batch reported as not resident (`None` when all are).
      `filled` is false when `mincore` failed. `whole` is the scan of all the
      pages, of which the calls `done` are issued already: it goes on with this
      batch's calls. */
  method CheckBatch(resident: nat -> bool, pageSize: nat, base: nat, numPages: nat,
                    pagesChecked: nat, pagesToCheck: nat, residency: array<bool>,
                    replies: seq<Unix.MincoreReply>, next: nat,
                    ghost whole: Traced<Outcome<nat>>, ghost done: seq<Syscall>)
    returns (filled: bool, nonResident: Option<nat>, after: nat, batch: seq<Syscall>)
    requires pageSize > 0 && base % pageSize == 0
    requires pagesChecked < numPages && pagesToCheck == Min(RESIDENCY_BATCH, numPages - pagesChecked)
    requires ResidentPrefix(resident, PageIndex(base, pageSize), pagesChecked) == pagesChecked
    requires residency.Length == RESIDENCY_BATCH
    requires var scan := ResidentScan(ResidentPrefix(resident, PageIndex(base, pageSize), numPages),
                                      pageSize, base, numPages, replies, pagesChecked, next);
             whole == Traced(scan.value, done + scan.calls)
    modifies residency
    ensures next < after && |batch| == after - next
    ensures var prefix := ResidentPrefix(resident, PageIndex(base, pageSize), numPages);
            var rest := ResidentScan(prefix, pageSize, base, numPages, replies, pagesChecked + pagesToCheck, after);
            (!filled ==>
               after - 1 < |replies| &&
               whole == Traced(Panic(MincoreFailed(replies[after - 1].result, replies[after - 1].errno)), done + batch)) &&
            (filled && nonResident.Some? ==> whole == Traced(Return(pagesChecked + nonResident.value), done + batch)) &&
            (filled && nonResident.None? ==>
               ResidentPrefix(resident, PageIndex(base, pageSize), pagesChecked + pagesToCheck) == pagesChecked + pagesToCheck &&
               whole == Traced(rest.value, (done + batch) + rest.calls))
  {
    var checkBuffer := base + pagesChecked * pageSize;
    var checkLength := pagesToCheck * pageSize;
    BatchFacts(base, pageSize, pagesChecked, pagesToCheck, numPages);
    filled, after, batch := Unix.GetResident(resident, pageSize, checkBuffer, checkLength,
                                             residency, replies, next);
    nonResident := None;
    if filled {
      // the first entry reported as not resident ends the resident prefix
      nonResident := Position(residency[..pagesToCheck]);
    }
    BatchOutcome(resident, pageSize, base, numPages, pagesChecked, pagesToCheck, replies, next,
                 after, batch, filled, residency[..], nonResident);
    ghost var prefix := ResidentPrefix(resident, PageIndex(base, pageSize), numPages);
    if filled && nonResident.None? {
      JoinTraced(whole, done, ResidentScan(prefix, pageSize, base, numPages, replies, pagesChecked, next), batch,
                 ResidentScan(prefix, pageSize, base, numPages, replies, pagesChecked + pagesToCheck, after));
    }
  }

  /** The loop of `resident_len`: ask `mincore` about the `numPages` pages from the
      page-aligned address `base`, 32 at a time, and count the pages before the
      first one that is not resident. A failing `mincore` panics. Each call takes
      the next of the kernel's `replies`. */
  method CountResidentPages(resident: nat -> bool, pageSize: nat, base: nat, numPages: nat,
                            replies: seq<Unix.MincoreReply>)
    returns (r: Outcome<nat>, calls: seq<Syscall>)
    requires pageSize > 0 && base % pageSize == 0
    ensures Traced(r, calls) ==
              ResidentScan(ResidentPrefix(resident, PageIndex(base, pageSize), numPages), pageSize, base, numPages, replies, 0, 0)
  {
    var residency := new bool[RESIDENCY_BATCH](_ => false);
    var pagesChecked := 0;
    var pagesResident := 0;
    calls := [];
    var next := 0;  // the kernel's answers used so far
    ghost var prefix := ResidentPrefix(resident, PageIndex(base, pageSize), numPages);
    ghost var whole := ResidentScan(prefix, pageSize, base, numPages, replies, 0, 0);
    // what the loop still has to do, from the pages and answers not used yet
    ghost var remaining := whole;
    assert whole.calls == calls + whole.calls;
    while pagesChecked < numPages
      invariant pagesChecked <= numPages && pagesResident == pagesChecked
      invariant ResidentPrefix(resident, PageIndex(base, pageSize), pagesChecked) == pagesChecked
      invariant remaining == ResidentScan(prefix, pageSize, base, numPages, replies, pagesChecked, next)
      invariant whole == Traced(remaining.value, calls + remaining.calls)
    {
      var pagesToCheck := Min(RESIDENCY_BATCH, numPages - pagesChecked);
      var filled, nonResident, after, batch := CheckBatch(resident, pageSize, base, numPages, pagesChecked,
                                                          pagesToCheck, residency, replies, next, whole, calls);
      calls := calls + batch;
      next := after;
      if !filled {
        var failure := replies[next - 1];
        return Panic(MincoreFailed(failure.result, failure.errno)), calls;
      }
      match nonResident {
        case Some(k) =>
          // the `break`: after the loop only the count is left to return
          pagesResident := pagesResident + k;
          return Return(pagesResident), calls;
        case None =>
          pagesResident := pagesResident + pagesToCheck;
          pagesChecked := pagesChecked + pagesToCheck;
          remaining := ResidentScan(prefix, pageSize, base, numPages, replies, pagesChecked, next);
      }
    }
    assert calls + [] == calls;
    r := Return(pagesResident);
  }

  class FileBuffer {
    const pageSize: nat
    /** The mapped address; 0 is the null pointer of an empty (or leaked) buffer. */
    var buffer: nat
    var length: nat

    /** The mapping `open` established, its `munmap` calls so far, and whether the
        buffer has not been dropped yet. */
    ghost const mappedAt: nat
    ghost const mappedLength: nat
    ghost var unmaps: nat
    ghost var live: bool

    ghost predicate Valid()
      reads this
    {
      IsPageSize(pageSize) &&
      (buffer == 0 <==> length == 0) &&
      buffer % pageSize == 0 && buffer + length <= MODULUS &&
      (buffer != 0 ==> buffer == mappedAt && length == mappedLength) &&
      (live ==> unmaps == 0) &&
      unmaps <= 1
    }

    /** The struct `open` assembles from a mapping and the page size. */
    constructor(pageSize: nat, buffer: nat, length: nat)
      requires IsPageSize(pageSize) && (buffer == 0 <==> length == 0)
      requires buffer % pageSize == 0 && buffer + length <= MODULUS
      ensures Valid() && live
      ensures this.pageSize == pageSize && this.buffer == buffer && this.length == length
    {
      this.pageSize := pageSize;
      this.buffer := buffer;
      this.length := length;
      mappedAt := buffer;
      mappedLength := length;
      unmaps := 0;
      live := true;
    }

    /** `open`: map the file, then read the page size. An error of `map_file` is
        returned; an unusable page size panics. `file` is the outcome of opening the
        path, `mmap` and `sysconf` are the kernel's answers. */
    static method Open(file: IoResult<Unix.OpenFile>, mmap: Unix.MmapReply, sysconf: int)
      returns (r: Outcome<IoResult<FileBuffer>>, calls: seq<Syscall>)
      // a conforming `mmap` aligns to the page size, when the system reports a usable one
      requires file.Ok? && file.value.metadata.Ok? && Unix.GetPageSize(sysconf).Return? ==>
                 Unix.MmapConforms(mmap, file.value.metadata.value, Unix.AsUsize(sysconf))
      ensures file.Err? ==> r == Return(Err(file.error)) && calls == []
      ensures file.Ok? ==> calls == Unix.MapFile(file.value, mmap).calls
      ensures file.Ok? && Unix.MapFile(file.value, mmap).value.Err? ==>
                r == Return(Err(Unix.MapFile(file.value, mmap).value.error))
      ensures file.Ok? && Unix.MapFile(file.value, mmap).value.Ok? ==>
                (r.Panic? <==> Unix.GetPageSize(sysconf).Panic?)
      ensures r.Panic? ==> r.reason == InvalidPageSize(Unix.AsUsize(sysconf))
      ensures r.Return? && r.value.Ok? ==>
                file.Ok? && Unix.MapFile(file.value, mmap).value.Ok? &&
                var mapping := Unix.MapFile(file.value, mmap).value.value;
                var fb := r.value.value;
                fresh(fb) && fb.Valid() && fb.live &&
                fb.buffer == mapping.address && fb.length == mapping.length &&
                fb.pageSize == Unix.AsUsize(sysconf)
      // opening, mapping and asking for the page size all succeed: so does `open`
      ensures file.Ok? && Unix.MapFile(file.value, mmap).value.Ok? && Unix.GetPageSize(sysconf).Return? ==>
                r.Return? && r.value.Ok?
    {
      if file.Err? {
        return Return(Err(file.error)), [];
      }
      var mapped := Unix.MapFile(file.value, mmap);
      calls := mapped.calls;
      if mapped.value.Err? {
        return Return(Err(mapped.value.error)), calls;
      }
      var mapping := mapped.value.value;
      var pageSize := Unix.GetPageSize(sysconf);
      if pageSize.Panic? {
        return Panic(pageSize.reason), calls;
      }
      Unix.MapFileEstablishesMapping(file.value, mmap, pageSize.value);
      var fb := new FileBuffer(pageSize.value, mapping.address, mapping.length);
      r := Return(Ok(fb));
    }

    /** The pages `resident_len` and `prefetch` work on for a request in bounds:
        the offset rounded down, and the length plus the slack this adds rounded up. */
    function CoveringRange(offset: nat, length: nat): (r: PageRange)
      reads this
      requires Valid() && offset + length <= this.length
      ensures Covers(r, offset, length, pageSize)
      ensures r.start + r.length < offset + length + pageSize
    {
      InBoundsIsAlignable(pageSize, buffer, this.length, offset, length);
      AlignedRange(offset, length, pageSize)
    }

    /** What `resident_len(offset, length)` returns when `resident` tells which
        virtual pages are resident. */
    ghost function ExpectedResident(resident: nat -> bool, offset: nat, length: nat): nat
      reads this
      requires Valid() && offset + length <= this.length
    {
      ExpectedResidentLen(resident, buffer, pageSize, CoveringRange(offset, length), offset, length)
    }

    /** One `mincore` call of `resident_len(offset, length)`: 1 to 32 whole pages
        inside the pages that cover the request. */
    ghost predicate BatchInRange(c: Syscall, offset: nat, length: nat)
      reads this
      requires Valid()
    {
      offset + length <= this.length &&
      var range := CoveringRange(offset, length);
      MincoreBatch(c, pageSize, buffer + range.start, buffer + range.start + range.length)
    }

    /** `resident_len`: the number of bytes from `offset` on, at most `length`, that
        lie in resident pages. `resident` tells which virtual pages are resident and
        `replies` are `mincore`'s answers in order. */
    method ResidentLen(offset: nat, length: nat, resident: nat -> bool, replies: seq<Unix.MincoreReply>)
      returns (r: Outcome<nat>, calls: seq<Syscall>)
      requires Valid() && live && offset <= MAX && length <= MAX
      ensures offset + length > MAX ==> r == Panic(ArithmeticOverflow) && calls == []
      ensures MAX >= offset + length > this.length ==> r == Panic(RangeOutsideBuffer) && calls == []
      ensures offset + length <= this.length && buffer == 0 ==> r == Return(0) && calls == []
      ensures r.Return? ==> offset + length <= this.length &&
                            r.value == ExpectedResident(resident, offset, length)
      // inside the buffer it panics only when the reply to its last `mincore` call is a
      // failure other than a busy kernel; no earlier reply is
      ensures offset + length <= this.length && r.Panic? ==>
                r.reason.MincoreFailed? && 0 < |calls| <= |replies| &&
                Unix.NextAction(replies[|calls| - 1]) == Unix.Failed
      ensures forall k :: 0 <= k < |calls| - 1 ==> Unix.NextAction(Unix.ReplyAt(replies, k)) != Unix.Failed
      ensures forall i :: 0 <= i < |calls| ==> BatchInRange(calls[i], offset, length)
      ensures AscendingMincore(calls)
      // a non-empty covering range is asked about, starting with its first 32 pages at most
      ensures offset + length <= this.length && buffer != 0 ==>
                var range := CoveringRange(offset, length);
                (|calls| > 0 <==> range.length > 0) &&
                (|calls| > 0 ==>
                   calls[0] == Mincore(buffer + range.start, Min(RESIDENCY_BATCH * pageSize, range.length)))
      // and they are exactly the calls of the loop over the covering pages
      ensures offset + length <= this.length && buffer != 0 ==>
                var range := CoveringRange(offset, length);
                var numPages := PageIndex(range.length, pageSize);
                var base := buffer + range.start;
                calls == ResidentScan(ResidentPrefix(resident, PageIndex(base, pageSize), numPages),
                                      pageSize, base, numPages, replies, 0, 0).calls
    {
      if offset + length > MAX {
        return Panic(ArithmeticOverflow), [];
      }
      if offset + length > this.length {
        return Panic(RangeOutsideBuffer), [];
      }
      if buffer == 0 {
        return Return(0), [];
      }
      r, calls := CountResidentBytes(offset, length, resident, replies);
    }

    /** The rest of `resident_len` for a request inside a non-empty mapping: count
        the resident pages that cover the request and turn them into bytes from
        `offset` on. */
    method CountResidentBytes(offset: nat, length: nat, resident: nat -> bool, replies: seq<Unix.MincoreReply>)
      returns (r: Outcome<nat>, calls: seq<Syscall>)
      requires Valid() && offset + length <= this.length && buffer != 0
      ensures r.Return? ==> r.value == ExpectedResident(resident, offset, length)
      ensures r.Panic? ==>
                r.reason.MincoreFailed? && 0 < |calls| <= |replies| &&
                Unix.NextAction(replies[|calls| - 1]) == Unix.Failed
      ensures forall k :: 0 <= k < |calls| - 1 ==> Unix.NextAction(Unix.ReplyAt(replies, k)) != Unix.Failed
      ensures forall i :: 0 <= i < |calls| ==> BatchInRange(calls[i], offset, length)
      ensures AscendingMincore(calls)
      ensures var range := CoveringRange(offset, length);
              (|calls| > 0 <==> range.length > 0) &&
              (|calls| > 0 ==>
                 calls[0] == Mincore(buffer + range.start, Min(RESIDENCY_BATCH * pageSize, range.length)))
      // exactly the calls of the loop over the covering pages
      ensures var range := CoveringRange(offset, length);
              var numPages := PageIndex(range.length, pageSize);
              var base := buffer + range.start;
              calls == ResidentScan(ResidentPrefix(resident, PageIndex(base, pageSize), numPages),
                                    pageSize, base, numPages, replies, 0, 0).calls
    {
      var range := CoveringRange(offset, length);
      PageSizePositive(pageSize);
      var numPages := PageIndex(range.length, pageSize);
      SumOfMultiples(buffer, range.start, pageSize);
      var pages;
      pages, calls := CountResidentPages(resident, pageSize, buffer + range.start, numPages, replies);
      WholeMultiple(range.length, pageSize);
      ScanFromStart(resident, pageSize, buffer + range.start, numPages, range.length, replies, pages, calls);
      if pages.Panic? {
        return Panic(pages.reason), calls;
      }
      var residentEnd := PagesToBytes(pages.value, pageSize) + range.start;
      assert residentEnd <= MAX by {
        ResidentEndFits(pages.value, pageSize, buffer, this.length, range, offset, length);
      }
      r := Return(ClampedResidentBytes(residentEnd, offset, length));
    }

    /** The one `madvise` call of `prefetch(offset, length)`: the smallest run of
        whole pages that covers the request. */
    ghost predicate AdviceCovers(c: Syscall, offset: nat, length: nat)
      reads this
    {
      c.Madvise? && pageSize > 0 && c.address % pageSize == 0 && c.length % pageSize == 0 &&
      buffer <= c.address <= buffer + offset < c.address + pageSize &&
      buffer + offset + length <= c.address + c.length < buffer + offset + length + pageSize
    }

    /** `prefetch`: advise the kernel to load the pages covering `[offset, offset + length)`. */
    method Prefetch(offset: nat, length: nat, madviseResult: int)
      returns (r: Outcome<()>, calls: seq<Syscall>)
      requires Valid() && live && offset <= MAX && length <= MAX
      ensures offset + length > MAX ==> r == Panic(ArithmeticOverflow) && calls == []
      ensures MAX >= offset + length > this.length ==> r == Panic(RangeOutsideBuffer) && calls == []
      ensures offset + length <= this.length && buffer == 0 ==> r == Return(()) && calls == []
      ensures offset + length <= this.length && buffer != 0 ==>
                |calls| == 1 && AdviceCovers(calls[0], offset, length) &&
                (r.Return? <==> madviseResult == 0)
      ensures offset + length <= this.length && r.Panic? ==> r.reason == MadviseFailed(madviseResult)
    {
      if offset + length > MAX {
        return Panic(ArithmeticOverflow), [];
      }
      if offset + length > this.length {
        return Panic(RangeOutsideBuffer), [];
      }
      if buffer == 0 {
        return Return(()), [];
      }
      var range := CoveringRange(offset, length);
      SumOfMultiples(buffer, range.start, pageSize);
      var advised := Unix.Prefetch(buffer + range.start, range.length, madviseResult);
      r, calls := advised.value, advised.calls;
    }

    /** `chunk_len_hint`: the page size, a power of two that is a `usize`. */
    function ChunkLenHint(): (r: nat)
      reads this
      requires Valid()
      ensures IsPageSize(r) && r == pageSize
    {
      pageSize
    }

    /** `deref`: the mapped bytes as a slice. */
    function Deref(): (s: Slice)
      reads this
      requires Valid()
      ensures ValidSliceParts(s) && s.length == length
      ensures buffer != 0 ==> s.address == buffer
    {
      View(buffer, length)
    }

    /** `drop`: unmap the file unless the buffer is null (an empty file or a leaked
        buffer). */
    method Drop(munmapResult: int) returns (r: Outcome<()>, calls: seq<Syscall>)
      requires Valid() && live
      modifies this
      ensures Valid() && !live
      ensures buffer == old(buffer) && length == old(length)
      ensures calls == if buffer != 0 then [Munmap(mappedAt, mappedLength)] else []
      ensures unmaps == |calls|
      ensures r.Panic? <==> buffer != 0 && munmapResult != 0
      ensures r.Panic? ==> r.reason == MunmapFailed(munmapResult)
    {
      if buffer != 0 {
        var unmapped := Unix.UnmapFile(buffer, length, munmapResult);
        r, calls := unmapped.value, unmapped.calls;
        unmaps := unmaps + 1;
      } else {
        r, calls := Return(()), [];
      }
      live := false;
    }

    /** `leak`: hand out the mapped bytes, null the buffer so that the drop that
        follows does not unmap it; the mapping stays for the rest of the program. */
    method Leak() returns (bytes: Slice, calls: seq<Syscall>)
      requires Valid() && live
      modifies this
      ensures bytes == View(old(buffer), old(length))
      ensures ValidSliceParts(bytes) && bytes.length == old(length)
      ensures old(buffer) != 0 ==> bytes.address == mappedAt && bytes.length == mappedLength
      ensures Valid() && !live && buffer == 0 && length == 0
      ensures calls == [] && unmaps == 0
    {
      bytes := View(buffer, length);
      buffer := 0;
      length := 0;
      var _, dropCalls := Drop(0);
      calls := dropCalls;
    }
  }
}

=== FILE: pages.dfy ===
/** Page-granularity arithmetic: rounding sizes and offsets to a power-of-two page
    size with the bit masks the library uses, and the page-aligned range that covers
    a byte range. */
module Pages {
  import opened Usize

  /** The page sizes the library works with: a power of two that is a `usize`. */
  predicate IsPageSize(p: nat) {
    IsPowerOfTwo(p) && p <= MAX
  }

  lemma PageSizePositive(p: nat)
    requires IsPageSize(p)
    ensures p > 0
  {
  }

  /** `round_down_to`: `size & !(power_of_two - 1)`, the largest multiple of the
      page size that is at most `size`. */
  function RoundDownTo(size: nat, powerOfTwo: nat): (r: nat)
    requires size <= MAX && IsPageSize(powerOfTwo)
    ensures r % powerOfTwo == 0 && r <= size && size - r < powerOfTwo
    ensures r == size - size % powerOfTwo
  {
    MaskRounds(size, powerOfTwo);
    And(size, Not(powerOfTwo - 1))
  }

  /** `round_up_to`: `(size + (power_of_two - 1)) & !(power_of_two - 1)`, the
      smallest multiple of the page size that is at least `size`. The addition is
      not checked by the library; its callers keep it inside `usize`. */
  function RoundUpTo(size: nat, powerOfTwo: nat): (r: nat)
    requires IsPageSize(powerOfTwo) && size + (powerOfTwo - 1) <= MAX
    ensures r % powerOfTwo == 0 && size <= r && r - size < powerOfTwo
    ensures r <= MAX
  {
    MaskRounds(size + (powerOfTwo - 1), powerOfTwo);
    And(size + (powerOfTwo - 1), Not(powerOfTwo - 1))
  }

  /** The mask clears the remainder modulo the page size, which leaves a multiple
      of it less than a page below `x`. */
  lemma MaskRounds(x: nat, p: nat)
    requires x <= MAX && IsPageSize(p)
    ensures var r := And(x, Not(p - 1));
            r == x - x % p && r % p == 0 && r <= x && x - r < p
  {
    MaskRoundsDown(x, p);
    MultipleBelow(x, p);
  }

  /** `x - x % p` is a multiple of `p`. */
  lemma MultipleBelow(x: nat, p: nat)
    requires p > 0
    ensures (x - x % p) % p == 0
  {
    ModUnique(x - x % p, p, x / p, 0);
  }

  /** Two multiples of `p` that are less than `p` apart are the same number. */
  lemma MultiplesClose(x: nat, y: nat, p: nat)
    requires p > 0 && x % p == 0 && y % p == 0 && x < y + p && y < x + p
    ensures x == y
  {
    ModUnique(x, p, x / p, 0);
    ModUnique(y, p, y / p, 0);
    assert p * (y / p - x / p) == y - x;
    MulAwayFromZero(p, y / p - x / p);
  }

  /** No multiple of the page size lies between `size` and `RoundUpTo(size)`:
      rounding up gives the least multiple that is at least `size`. */
  lemma RoundUpIsLeast(size: nat, p: nat, m: nat)
    requires IsPageSize(p) && size + (p - 1) <= MAX
    requires m % p == 0 && size <= m
    ensures RoundUpTo(size, p) <= m
  {
    var r := RoundUpTo(size, p);
    if m < r {
      MultiplesClose(m, r, p);
    }
  }

  /** No multiple of the page size lies between `RoundDownTo(size)` and `size`:
      rounding down gives the greatest multiple that is at most `size`. */
  lemma RoundDownIsGreatest(size: nat, p: nat, m: nat)
    requires IsPageSize(p) && size <= MAX
    requires m % p == 0 && m <= size
    ensures m <= RoundDownTo(size, p)
  {
    var r := RoundDownTo(size, p);
    if r < m {
      MultiplesClose(r, m, p);
    }
  }

  /** Rounding up gives the one multiple of the page size in `[size, size + p)`. */
  lemma RoundUpExact(size: nat, p: nat, m: nat)
    requires IsPageSize(p) && size + (p - 1) <= MAX
    requires m % p == 0 && size <= m < size + p
    ensures RoundUpTo(size, p) == m
  {
    MultiplesClose(m, RoundUpTo(size, p), p);
  }

  /** Rounding down gives the one multiple of the page size in `(size - p, size]`. */
  lemma RoundDownExact(size: nat, p: nat, m: nat)
    requires IsPageSize(p) && size <= MAX
    requires m % p == 0 && m <= size < m + p
    ensures RoundDownTo(size, p) == m
  {
    MultiplesClose(m, RoundDownTo(size, p), p);
  }

  /** Test vectors of `verify_round_up_to` and `verify_round_down_to` with a page
      size of 1024: a size inside the first page. */
  lemma RoundingTestVector23()
    ensures RoundUpTo(23, 1024) == 1024 && RoundDownTo(23, 1024) == 0
  {
    PageSize1024();
    RoundUpExact(23, 1024, 1024);
    RoundDownExact(23, 1024, 0);
  }

  /** A size that is already a multiple of the page size is left alone. */
  lemma RoundingTestVector1024()
    ensures RoundUpTo(1024, 1024) == 1024 && RoundDownTo(1024, 1024) == 1024
  {
    PageSize1024();
    RoundUpExact(1024, 1024, 1024);
    RoundDownExact(1024, 1024, 1024);
  }

  /** One byte past a page boundary. */
  lemma RoundingTestVector1025()
    ensures RoundUpTo(1025, 1024) == 2048 && RoundDownTo(1025, 1024) == 1024
  {
    PageSize1024();
    RoundUpExact(1025, 1024, 2048);
    RoundDownExact(1025, 1024, 1024);
  }

  lemma PageSize1024()
    ensures IsPageSize(1024)
  {
    assert IsPowerOfTwo(1024);
  }

  /** A page-aligned byte range: `start` and `length` are offsets into the buffer. */
  datatype PageRange = PageRange(start: nat, length: nat)

  /** `range` is made of whole pages, starts in the page of `offset` and covers
      `[offset, offset + length)`. */
  predicate Covers(range: PageRange, offset: nat, length: nat, pageSize: nat) {
    pageSize > 0 && range.start % pageSize == 0 && range.length % pageSize == 0 &&
    range.start <= offset < range.start + pageSize &&
    offset + length <= range.start + range.length
  }

  /** The precondition of AlignedRange: the rounded-up length fits in a `usize`. */
  predicate AlignableRange(offset: nat, length: nat, pageSize: nat) {
    IsPageSize(pageSize) && offset <= MAX &&
    length + offset % pageSize + (pageSize - 1) <= MAX
  }

  /** The alignment shared by `resident_len` and `prefetch`: the offset is rounded
      down, the length plus the slack this adds is rounded up. The result is the
      smallest page-aligned range that covers `[offset, offset + length)`. */
  function AlignedRange(offset: nat, length: nat, pageSize: nat): (r: PageRange)
    requires AlignableRange(offset, length, pageSize)
    ensures r.start % pageSize == 0 && r.length % pageSize == 0
    ensures r.start <= offset && offset - r.start < pageSize
    ensures offset + length <= r.start + r.length < offset + length + pageSize
    ensures r.length <= MAX
    ensures Covers(r, offset, length, pageSize)
  {
    var alignedOffset := RoundDownTo(offset, pageSize);
    var alignedLength := RoundUpTo(length + (offset - alignedOffset), pageSize);
    SumOfMultiples(alignedOffset, alignedLength, pageSize);
    PageRange(alignedOffset, alignedLength)
  }

  /** A multiple of `p` is its number of whole `p`s times `p`. */
  lemma WholeMultiple(x: nat, p: nat)
    requires p > 0 && x % p == 0
    ensures x == (x / p) * p
  {
  }

  lemma SumOfMultiples(a: nat, b: nat, p: nat)
    requires p > 0 && a % p == 0 && b % p == 0
    ensures (a + b) % p == 0
  {
    ModUnique(a + b, p, a / p + b / p, 0);
  }

  /** The aligned range ends where the end of the requested range, rounded up, ends. */
  lemma AlignedRangeEnd(offset: nat, length: nat, pageSize: nat)
    requires AlignableRange(offset, length, pageSize)
    requires offset + length + (pageSize - 1) <= MAX
    ensures var r := AlignedRange(offset, length, pageSize);
            r.start + r.length == RoundUpTo(offset + length, pageSize)
  {
    var r := AlignedRange(offset, length, pageSize);
    var up := RoundUpTo(offset + length, pageSize);
    SumOfMultiples(r.start, r.length, pageSize);
    RoundUpIsLeast(offset + length, pageSize, r.start + r.length);
    if up < r.start + r.length {
      MultiplesClose(up, r.start + r.length, pageSize);
    }
  }
}

=== FILE: residency.dfy ===
/** What `resident_len` computes: the length of the resident prefix of a byte
    range, stated page by page, and how it turns back into a byte count. */
module Residency {
  import opened Usize
  import opened Effects
  import opened Pages

  /** `residency[..n].iter().position(|resident| !resident)`: the index of the first
      page reported as not resident, if any. */
  function Position(s: seq<bool>): (r: Option<nat>)
    ensures r.Some? ==> r.value < |s| && !s[r.value] && forall j :: 0 <= j < r.value ==> s[j]
    ensures r.None? ==> forall j :: 0 <= j < |s| ==> s[j]
  {
    if |s| == 0 then None
    else if !s[0] then Some(0)
    else match Position(s[1..])
      case None => None
      case Some(k) => Some(k + 1)
  }

  /** The virtual page number of `address`; for a page-aligned length, its number of pages. */
  function PageIndex(address: nat, pageSize: nat): nat
    requires pageSize > 0
  {
    address / pageSize
  }

  /** The number of bytes in `pages` pages. */
  function PagesToBytes(pages: nat, pageSize: nat): nat {
    pages * pageSize
  }

  /** Whether the byte at `address` lies in a resident page. */
  predicate ByteResident(resident: nat -> bool, pageSize: nat, address: nat)
    requires pageSize > 0
  {
    resident(PageIndex(address, pageSize))
  }

  /** The number of pages, from virtual page `first` on and at most `n` of them,
      that are resident before the first page that is not. */
  function ResidentPrefix(resident: nat -> bool, first: nat, n: nat): (r: nat)
    ensures r <= n
    decreases n
  {
    if n == 0 || !resident(first) then 0 else 1 + ResidentPrefix(resident, first + 1, n - 1)
  }

  /** The prefix is resident page by page, and it stops at a page that is not. */
  lemma {:induction false} ResidentPrefixIsResident(resident: nat -> bool, first: nat, n: nat)
    ensures var k := ResidentPrefix(resident, first, n);
            (forall p :: first <= p < first + k ==> resident(p)) &&
            (k < n ==> !resident(first + k))
    decreases n
  {
    if n > 0 && resident(first) {
      ResidentPrefixIsResident(resident, first + 1, n - 1);
    }
  }

  /** A count of resident pages that stops at the first page that is not resident
      (or at `n`) is the resident prefix. */
  lemma {:induction false} ResidentPrefixUnique(resident: nat -> bool, first: nat, n: nat, k: nat)
    requires k <= n
    requires forall p :: first <= p < first + k ==> resident(p)
    requires k < n ==> !resident(first + k)
    ensures ResidentPrefix(resident, first, n) == k
    decreases n
  {
    if k > 0 {
      assert resident(first);
      ResidentPrefixUnique(resident, first + 1, n - 1, k - 1);
    }
  }

  /** The resident prefix of `a + b` pages: the prefix of the first `a` if it stops
      inside them, otherwise all `a` and the prefix of the next `b`. */
  lemma {:induction false} PrefixSplit(resident: nat -> bool, first: nat, a: nat, b: nat)
    ensures var head := ResidentPrefix(resident, first, a);
            ResidentPrefix(resident, first, a + b) ==
              if head < a then head else a + ResidentPrefix(resident, first + a, b)
    decreases a
  {
    if a > 0 && resident(first) {
      PrefixSplit(resident, first + 1, a - 1, b);
    }
  }

  /** The position of the first `false` among `count` residency entries filled in
      from page `firstPage` is the length of the resident prefix of those pages,
      and there is none exactly when all of them are resident. */
  lemma {:induction false} PositionIsPrefix(filled: seq<bool>, resident: nat -> bool,
                                            firstPage: nat, count: nat)
    requires count <= |filled|
    requires forall j :: 0 <= j < count ==> filled[j] == resident(firstPage + j)
    ensures var k := ResidentPrefix(resident, firstPage, count);
            Position(filled[..count]) == if k == count then None else Some(k)
    decreases count
  {
    if count > 0 {
      var window := filled[..count];
      assert window[0] == resident(firstPage);
      if resident(firstPage) {
        var rest := filled[1..];
        assert window[1..] == rest[..count - 1];
        forall j | 0 <= j < count - 1
          ensures rest[j] == resident(firstPage + 1 + j)
        {
          assert rest[j] == filled[j + 1];
        }
        PositionIsPrefix(rest, resident, firstPage + 1, count - 1);
      }
    }
  }

  /** One batch of the loop of `resident_len`: `done` pages from `first` are known
      resident and `filled` reports the next `count`. A page reported as not
      resident ends the run of resident pages among all `total`; otherwise the run
      goes on past the batch. */
  lemma BatchCount(filled: seq<bool>, resident: nat -> bool, first: nat,
                   done: nat, count: nat, total: nat)
    requires count <= |filled| && done + count <= total
    requires forall j :: 0 <= j < count ==> filled[j] == resident(first + done + j)
    requires ResidentPrefix(resident, first, done) == done
    ensures Position(filled[..count]).Some? ==>
              ResidentPrefix(resident, first, total) == done + Position(filled[..count]).value &&
              ResidentPrefix(resident, first, total) < done + count
    ensures Position(filled[..count]).None? ==>
              ResidentPrefix(resident, first, done + count) == done + count &&
              done + count <= ResidentPrefix(resident, first, total)
  {
    PositionIsPrefix(filled, resident, first + done, count);
    PrefixSplit(resident, first, done, count);
    PrefixSplit(resident, first + done, count, total - done - count);
    PrefixSplit(resident, first, done, total - done);
    PrefixSplit(resident, first, done + count, total - done - count);
  }

  /** Lines 183-187 as meant. `residentEnd` is `pages_resident * page_size +
      aligned_offset`, the offset where the resident pages end; the result is the
      part of it past `offset`, never below zero, and never more than `length`. */
  function ClampedResidentBytes(residentEnd: nat, offset: nat, length: nat): (r: nat)
    ensures r <= length
    ensures residentEnd <= offset ==> r == 0
    ensures offset <= residentEnd ==> r == Min(length, residentEnd - offset)
  {
    Min(length, if residentEnd >= offset then residentEnd - offset else 0)
  }

  /** Lines 183-187 as written, in a debug build: the subtraction is checked and
      panics when it would go below zero. */
  function ClampedResidentBytesDebug(residentEnd: nat, offset: nat, length: nat): (r: Outcome<nat>)
    ensures r.Panic? <==> residentEnd < offset
    ensures r.Panic? ==> r.reason == ArithmeticOverflow
    // when it returns, it returns the intended value
    ensures r.Return? ==> r.value == ClampedResidentBytes(residentEnd, offset, length)
  {
    if residentEnd < offset then Panic(ArithmeticOverflow) else Return(Min(length, residentEnd - offset))
  }

  /** A difference that goes below zero by at most `2^64` wraps to `2^64` minus
      the shortfall. */
  lemma WrappedShortfall(residentEnd: nat, offset: nat)
    ensures residentEnd < offset <= residentEnd + MODULUS ==>
              (residentEnd - offset) % MODULUS == MODULUS - (offset - residentEnd)
  {
    if residentEnd < offset <= residentEnd + MODULUS {
      var shortfall := offset - residentEnd;
      ModUnique(MODULUS - shortfall, MODULUS, 0, MODULUS - shortfall);
      assert residentEnd - offset == MODULUS - shortfall + MODULUS * (-1);
    }
  }

  /** Lines 183-187 as written, in a release build: the subtraction wraps around. */
  function ClampedResidentBytesRelease(residentEnd: nat, offset: nat, length: nat): (r: nat)
    ensures r <= length
    // a shortfall of at most `2^64 - length` wraps to a difference of at least `length`
    ensures residentEnd < offset && offset - residentEnd <= MODULUS - length ==> r == length
  {
    WrappedShortfall(residentEnd, offset);
    Min(length, (residentEnd - offset) % MODULUS)
  }

  /** When no page is resident and `offset` is not page-aligned, the resident pages
      end at the aligned offset, before `offset`. The code as written then panics in
      a debug build and claims the whole range is resident in a release build; the
      intended answer is 0. */
  lemma UnderflowWhenNothingResident(pageSize: nat, offset: nat, length: nat)
    requires IsPageSize(pageSize) && offset <= MAX && offset % pageSize != 0
    requires length + pageSize <= MODULUS
    ensures var residentEnd := RoundDownTo(offset, pageSize);
            ClampedResidentBytesDebug(residentEnd, offset, length) == Panic(ArithmeticOverflow) &&
            ClampedResidentBytesRelease(residentEnd, offset, length) == length &&
            ClampedResidentBytes(residentEnd, offset, length) == 0
  {
    var alignedOffset := RoundDownTo(offset, pageSize);
    assert 0 < offset - alignedOffset < pageSize;
  }

  /** Where the subtraction does not go below zero, both builds compute the intended value. */
  lemma ClampedResidentBytesAgree(residentEnd: nat, offset: nat, length: nat)
    requires offset <= residentEnd <= MAX
    ensures ClampedResidentBytesDebug(residentEnd, offset, length)
         == Return(ClampedResidentBytes(residentEnd, offset, length))
    ensures ClampedResidentBytesRelease(residentEnd, offset, length)
         == ClampedResidentBytes(residentEnd, offset, length)
  {
    ModUnique(residentEnd - offset, MODULUS, 0, residentEnd - offset);
  }

  /** The value `resident_len` returns for a request inside a mapping that starts at
      the page-aligned address `buffer`, given the pages `range` that cover it: the
      resident prefix of those pages, in bytes from `offset`, at most `length`. */
  function ExpectedResidentLen(resident: nat -> bool, buffer: nat, pageSize: nat,
                               range: PageRange, offset: nat, length: nat): nat
    requires Covers(range, offset, length, pageSize) && buffer % pageSize == 0
  {
    var pages := ResidentPrefix(resident, PageIndex(buffer + range.start, pageSize),
                                PageIndex(range.length, pageSize));
    ClampedResidentBytes(PagesToBytes(pages, pageSize) + range.start, offset, length)
  }

  /** The page of a byte `d` bytes past a page-aligned address `base`. */
  lemma PageOfOffset(base: nat, d: nat, p: nat)
    requires p > 0 && base % p == 0
    ensures (base + d) / p == base / p + d / p
  {
    var q, t := base / p, d / p;
    ModUnique(base, p, q, 0);
    assert d == p * t + d % p;
    assert base + d == p * (q + t) + d % p;
    ModUnique(base + d, p, q + t, d % p);
  }

  /** Fewer than `k` pages' worth of bytes lie in the first `k` pages. */
  lemma DivBelow(d: nat, p: nat, k: nat)
    requires p > 0 && d < k * p
    ensures d / p < k
  {
    var t := d / p;
    assert d == p * t + d % p;
    assert p * (k - t) > 0;
    MulAwayFromZero(p, k - t);
  }

  /** Every byte of the first `k` pages from `base` lies in a resident page when
      those pages are resident. */
  lemma BytesOfResidentPages(resident: nat -> bool, base: nat, pageSize: nat, k: nat, a: nat)
    requires pageSize > 0 && base % pageSize == 0
    requires forall p :: base / pageSize <= p < base / pageSize + k ==> resident(p)
    requires base <= a < base + k * pageSize
    ensures ByteResident(resident, pageSize, a)
  {
    DivBelow(a - base, pageSize, k);
    PageOfOffset(base, a - base, pageSize);
  }

  /** The first byte of the page `k` pages past `base` lies in that page. */
  lemma FirstByteOfPage(base: nat, pageSize: nat, k: nat)
    requires pageSize > 0 && base % pageSize == 0
    ensures (base + k * pageSize) / pageSize == base / pageSize + k
  {
    ModUnique(k * pageSize, pageSize, k, 0);
    PageOfOffset(base, k * pageSize, pageSize);
  }

  /** A byte less than a page past a page-aligned `base` lies in the page at `base`. */
  lemma ByteOfFirstPage(base: nat, pageSize: nat, d: nat)
    requires pageSize > 0 && base % pageSize == 0 && d < pageSize
    ensures (base + d) / pageSize == base / pageSize
  {
    ModUnique(d, pageSize, 0, d);
    PageOfOffset(base, d, pageSize);
  }

  /** A positive number of pages is at least one page of bytes. */
  lemma PagesAtLeastOne(k: nat, pageSize: nat)
    requires k > 0
    ensures k * pageSize >= pageSize
  {
    assert k * pageSize == (k - 1) * pageSize + pageSize;
  }

  /** The bytes `ExpectedResidentLen` counts lie in resident pages. */
  lemma CountedBytesAreResident(resident: nat -> bool, buffer: nat, pageSize: nat,
                                range: PageRange, offset: nat, length: nat)
    requires Covers(range, offset, length, pageSize) && buffer % pageSize == 0
    ensures var r := ExpectedResidentLen(resident, buffer, pageSize, range, offset, length);
            forall a :: buffer + offset <= a < buffer + offset + r ==> ByteResident(resident, pageSize, a)
  {
    var base := buffer + range.start;
    var first, n := base / pageSize, range.length / pageSize;
    var k := ResidentPrefix(resident, first, n);
    var r := ExpectedResidentLen(resident, buffer, pageSize, range, offset, length);
    SumOfMultiples(buffer, range.start, pageSize);
    ResidentPrefixIsResident(resident, first, n);
    forall a | buffer + offset <= a < buffer + offset + r
      ensures ByteResident(resident, pageSize, a)
    {
      BytesOfResidentPages(resident, base, pageSize, k, a);
    }
  }

  /** When `ExpectedResidentLen` stops short of `length`, the next byte lies in a
      page that is not resident. */
  lemma CountStopsAtNonResident(resident: nat -> bool, buffer: nat, pageSize: nat,
                                range: PageRange, offset: nat, length: nat)
    requires Covers(range, offset, length, pageSize) && buffer % pageSize == 0
    ensures var r := ExpectedResidentLen(resident, buffer, pageSize, range, offset, length);
            r < length ==> !ByteResident(resident, pageSize, buffer + offset + r)
  {
    var base := buffer + range.start;
    var first, n := base / pageSize, range.length / pageSize;
    var k := ResidentPrefix(resident, first, n);
    var residentEnd := k * pageSize + range.start;
    var r := ExpectedResidentLen(resident, buffer, pageSize, range, offset, length);
    assert r == ClampedResidentBytes(residentEnd, offset, length);
    if r < length {
      SumOfMultiples(buffer, range.start, pageSize);
      ResidentPrefixIsResident(resident, first, n);
      WholeMultiple(range.length, pageSize);
      if offset <= residentEnd {
        // the resident pages end inside the range, at a page that is not resident
        if k == n {
          assert false;
        }
        FirstByteOfPage(base, pageSize, k);
        assert buffer + offset + r == base + k * pageSize;
      } else {
        // no page is resident, and the byte at `offset` lies in the first page
        if k > 0 {
          PagesAtLeastOne(k, pageSize);
          assert false;
        }
        if n == 0 {
          assert false;
        }
        ByteOfFirstPage(base, pageSize, offset - range.start);
        assert buffer + offset + r == base + (offset - range.start);
      }
    }
  }

  /** `resident_len`'s promise (src/lib.rs:119-125): the first `r` bytes from
      `offset` lie in resident pages, `r` is at most `length`, and when `r` falls
      short of `length` the byte right after them lies in a page that is not resident. */
  lemma ResidentLenMeaning(resident: nat -> bool, buffer: nat, pageSize: nat,
                           range: PageRange, offset: nat, length: nat)
    requires Covers(range, offset, length, pageSize) && buffer % pageSize == 0
    ensures var r := ExpectedResidentLen(resident, buffer, pageSize, range, offset, length);
            r <= length &&
            (forall a :: buffer + offset <= a < buffer + offset + r ==>
               ByteResident(resident, pageSize, a)) &&
            (r < length ==> !ByteResident(resident, pageSize, buffer + offset + r))
  {
    CountedBytesAreResident(resident, buffer, pageSize, range, offset, length);
    CountStopsAtNonResident(resident, buffer, pageSize, range, offset, length);
  }

  /** `resident_len` reports the whole request exactly when every byte of it lies
      in a resident page (the `make_resident` test touches `[3, 13)` and then expects 10). */
  lemma FullLengthIffAllResident(resident: nat -> bool, buffer: nat, pageSize: nat,
                                 range: PageRange, offset: nat, length: nat)
    requires Covers(range, offset, length, pageSize) && buffer % pageSize == 0
    ensures ExpectedResidentLen(resident, buffer, pageSize, range, offset, length) == length <==>
            forall a :: buffer + offset <= a < buffer + offset + length ==>
              ByteResident(resident, pageSize, a)
  {
    ResidentLenMeaning(resident, buffer, pageSize, range, offset, length);
  }
}

=== FILE: unix.dfy ===
/** The Unix back end: mapping and unmapping a file, asking which pages are
    resident, advising the kernel to load a range, and reading the page size.
    The system calls are not run: what the kernel answers is a parameter, and each
    call the back end issues is reported in a trace. */
module Unix {
  import opened Usize
  import opened Effects
  import opened Pages

  /** `MAP_FAILED`, the address `(void *) -1`. */
  const MAP_FAILED: nat := MAX

  /** `EAGAIN` on Linux. */
  const EAGAIN: int := 11

  /** What `mmap` returned, and `errno` after it. */
  datatype MmapReply = MmapReply(address: nat, errno: int)

  /** What a conforming `mmap` returns for a private read-only mapping of `length`
      bytes: `MAP_FAILED`, or a non-null page-aligned address with room for the
      whole mapping below the end of the address space. */
  predicate MmapConforms(reply: MmapReply, length: nat, pageSize: nat) {
    reply.address == MAP_FAILED ||
    (reply.address != 0 && pageSize != 0 && reply.address % pageSize == 0 &&
     reply.address + length <= MODULUS)
  }

  /** An open file as `map_file` sees it: only the outcome of asking for its
      metadata (its length in bytes) matters. */
  datatype OpenFile = OpenFile(metadata: IoResult<nat>)

  /** A mapped region: the null address 0 with length 0 for an empty file. */
  datatype Mapping = Mapping(address: nat, length: nat)

  /** `map_file`: read the file's length, refuse a length that is not a `usize`,
      do not map an empty file at all, otherwise map the whole file. */
  function MapFile(file: OpenFile, mmap: MmapReply): (r: Traced<IoResult<Mapping>>)
    // mmap is issued exactly when the file's length is known, nonzero and a usize
    ensures r.calls == if file.metadata.Ok? && 0 < file.metadata.value <= MAX
                       then [Mmap(file.metadata.value)] else []
    ensures file.metadata.Err? ==> r.value == Err(file.metadata.error)
    ensures file.metadata.Ok? && file.metadata.value > MAX ==> r.value.Err? && r.value.error.Other?
    ensures file.metadata == Ok(0) ==> r.value == Ok(Mapping(0, 0))
    // once mmap is issued, the result is an error exactly when mmap failed
    ensures r.calls != [] ==> (r.value.Err? <==> mmap.address == MAP_FAILED)
    ensures r.calls != [] && r.value.Err? ==> r.value.error == Os(mmap.errno)
    // a mapping keeps the file's length, and its address is mmap's unless the file is empty
    ensures r.value.Ok? ==> file.metadata.Ok? && r.value.value.length == file.metadata.value
    ensures r.value.Ok? && r.value.value.length != 0 ==> r.value.value.address == mmap.address
  {
    match file.metadata
    case Err(e) => Traced(Err(e), [])
    case Ok(length) =>
      if length > MAX then
        Traced(Err(Other("file is larger than address space")), [])
      else if length == 0 then
        Traced(Ok(Mapping(0, 0)), [])
      else if mmap.address == MAP_FAILED then
        Traced(Err(Os(mmap.errno)), [Mmap(length)])
      else
        Traced(Ok(Mapping(mmap.address, length)), [Mmap(length)])
  }

  /** What `map_file` hands to the buffer, given a conforming `mmap`: the null
      address exactly for an empty file, otherwise a page-aligned region that ends
      inside the address space. */
  lemma MapFileEstablishesMapping(file: OpenFile, mmap: MmapReply, pageSize: nat)
    requires file.metadata.Ok? ==> MmapConforms(mmap, file.metadata.value, pageSize)
    ensures var r := MapFile(file, mmap).value;
            r.Ok? ==> (r.value.address == 0 <==> r.value.length == 0) &&
                      (r.value.address != 0 ==> r.value.address % pageSize == 0 &&
                                                r.value.address + r.value.length <= MODULUS)
  {
  }

  /** `unmap_file`: `munmap` the region; a nonzero result is a program error and panics. */
  function UnmapFile(address: nat, length: nat, munmapResult: int): (r: Traced<Outcome<()>>)
    ensures r.calls == [Munmap(address, length)]
    ensures r.value.Return? <==> munmapResult == 0
    ensures r.value.Panic? ==> r.value.reason == MunmapFailed(munmapResult)
  {
    Traced(if munmapResult == 0 then Return(()) else Panic(MunmapFailed(munmapResult)),
           [Munmap(address, length)])
  }

  /** `prefetch`: `madvise(MADV_WILLNEED)` on the range; a nonzero result panics. */
  function Prefetch(address: nat, length: nat, madviseResult: int): (r: Traced<Outcome<()>>)
    ensures r.calls == [Madvise(address, length)]
    ensures r.value.Return? <==> madviseResult == 0
    ensures r.value.Panic? ==> r.value.reason == MadviseFailed(madviseResult)
  {
    Traced(if madviseResult == 0 then Return(()) else Panic(MadviseFailed(madviseResult)),
           [Madvise(address, length)])
  }

  /** `sysconf(_SC_PAGESIZE) as usize`: a `c_long` converted to `usize`, so -1 becomes
      `usize::MAX`. */
  function AsUsize(value: int): (r: nat)
    ensures r <= MAX
    ensures 0 <= value <= MAX ==> r == value
    ensures value == -1 ==> r == MAX
  {
    value % MODULUS
  }

  /** `get_page_size`: the page size the system reports, which must be nonzero and
      pass `page_size & (page_size - 1) == 0`; anything else panics. */
  function GetPageSize(sysconf: int): (r: Outcome<nat>)
    ensures r.Return? <==> IsPageSize(AsUsize(sysconf))
    ensures r.Return? ==> r.value == AsUsize(sysconf) && IsPageSize(r.value)
    ensures r.Panic? ==> r.reason == InvalidPageSize(AsUsize(sysconf))
  {
    var pageSize := AsUsize(sysconf);
    if pageSize == 0 then
      Panic(InvalidPageSize(pageSize))
    else
      PowerOfTwoTest(pageSize);
      if And(pageSize, pageSize - 1) != 0 then Panic(InvalidPageSize(pageSize))
      else Return(pageSize)
  }

  /** What `mincore` returned, and `errno` after it. */
  datatype MincoreReply = MincoreReply(result: int, errno: int)

  /** What `get_resident` does after one `mincore` call. */
  datatype MincoreAction = Filled | Busy | Failed

  /** A conforming `mincore` returns 0, or -1 with the reason in `errno`. */
  predicate MincoreConforms(reply: MincoreReply) {
    reply.result == 0 || reply.result == -1
  }

  /** The decision as `get_resident` writes it: the return value itself is compared
      with `EAGAIN`; anything other than 0 or `EAGAIN` fails the assertion. */
  function NextActionAsWritten(reply: MincoreReply): (r: MincoreAction)
    // the assertion at line 78 fails exactly when the result is neither 0 nor `EAGAIN`
    ensures r == Failed <==> reply.result != 0 && reply.result != EAGAIN
    ensures r == Busy <==> reply.result == EAGAIN
    ensures r == Filled <==> reply.result == 0
  {
    if reply.result == 0 then Filled
    else if reply.result == EAGAIN then Busy
    else Failed
  }

  /** The decision `get_resident` means to make: the kernel is busy when `mincore`
      fails with `errno` set to `EAGAIN`. */
  function NextAction(reply: MincoreReply): (r: MincoreAction)
    ensures r == Filled <==> reply.result == 0
    ensures r == Busy <==> reply.result == -1 && reply.errno == EAGAIN
    // a reply that is neither success nor a busy kernel fails
    ensures r == Failed <==> reply.result != 0 && !(reply.result == -1 && reply.errno == EAGAIN)
  {
    if reply.result == 0 then Filled
    else if reply.result == -1 && reply.errno == EAGAIN then Busy
    else Failed
  }

  /** As written, the retry can never be taken: a conforming `mincore` never
      returns `EAGAIN` itself. */
  lemma RetryIsUnreachableAsWritten(reply: MincoreReply)
    requires MincoreConforms(reply)
    ensures NextActionAsWritten(reply) != Busy
  {
  }

  /** A busy kernel makes the code as written panic where a retry was meant. */
  lemma BusyKernelPanicsAsWritten()
    ensures NextActionAsWritten(MincoreReply(-1, EAGAIN)) == Failed
    ensures NextAction(MincoreReply(-1, EAGAIN)) == Busy
  {
  }

  /** The two decisions differ only on the busy kernel. */
  lemma NextActionsAgree(reply: MincoreReply)
    requires MincoreConforms(reply)
    ensures NextAction(reply) == Busy <==> reply == MincoreReply(-1, EAGAIN)
    ensures NextAction(reply) != Busy ==> NextActionAsWritten(reply) == NextAction(reply)
  {
  }

  /** The kernel's answer to the `k`-th `mincore` call: the given replies in order,
      then success (the kernel is assumed to stop being busy eventually). */
  function ReplyAt(replies: seq<MincoreReply>, k: nat): MincoreReply {
    if k < |replies| then replies[k] else MincoreReply(0, 0)
  }

  /** How many `mincore` calls one `get_resident` makes when the kernel's answers
      start at `replies[next]`: up to and including the first answer that does not
      say the kernel is busy. */
  function Attempts(replies: seq<MincoreReply>, next: nat): (n: nat)
    ensures n > 0
    decreases |replies| - next
  {
    if NextAction(ReplyAt(replies, next)) == Busy then 1 + Attempts(replies, next + 1) else 1
  }

  /** The answers `Attempts` counts are busy kernels, all but the last. */
  lemma {:induction false} AttemptsStopAtNotBusy(replies: seq<MincoreReply>, next: nat)
    ensures var n := Attempts(replies, next);
            (forall k :: next <= k < next + n - 1 ==> NextAction(ReplyAt(replies, k)) == Busy) &&
            NextAction(ReplyAt(replies, next + n - 1)) != Busy
    decreases |replies| - next
  {
    if NextAction(ReplyAt(replies, next)) == Busy {
      AttemptsStopAtNotBusy(replies, next + 1);
    }
  }

  /** The residency of `count` pages from virtual page `firstPage`, as `mincore`
      reports it. */
  ghost predicate FilledFrom(residency: seq<bool>, resident: nat -> bool, firstPage: nat, count: nat)
    requires count <= |residency|
  {
    forall j :: 0 <= j < count ==> residency[j] == resident(firstPage + j)
  }

  /** `get_resident`: ask `mincore` which pages of `[address, address + length)`
      are resident, retrying while the kernel is busy. `resident` tells which
      virtual pages are resident; `replies[next..]` are the kernel's answers. */
  method GetResident(resident: nat -> bool, pageSize: nat, address: nat, length: nat,
                     residency: array<bool>, replies: seq<MincoreReply>, next: nat)
    returns (filled: bool, after: nat, calls: seq<Syscall>)
    requires pageSize != 0 && address % pageSize == 0 && length % pageSize == 0
    requires residency.Length >= length / pageSize
    modifies residency
    ensures next < after && after == next + Attempts(replies, next)
    // every attempt repeats the same request
    ensures calls == Repeat(Mincore(address, length), after - next)
    ensures forall k :: next <= k < after - 1 ==> NextAction(ReplyAt(replies, k)) == Busy
    ensures filled <==> NextAction(ReplyAt(replies, after - 1)) == Filled
    ensures !filled ==> after - 1 < |replies| && NextAction(replies[after - 1]) == Failed
    ensures filled ==> FilledFrom(residency[..], resident, address / pageSize, length / pageSize)
    // entries past the requested pages keep what they held
    ensures forall j :: length / pageSize <= j < residency.Length ==> residency[j] == old(residency[j])
    ensures !filled ==> residency[..] == old(residency[..])
  {
    var k := next;
    calls := [Mincore(address, length)];
    while NextAction(ReplyAt(replies, k)) == Busy
      invariant next <= k
      invariant calls == Repeat(Mincore(address, length), k + 1 - next)
      invariant forall i :: next <= i < k ==> NextAction(ReplyAt(replies, i)) == Busy
      invariant Attempts(replies, next) == k - next + Attempts(replies, k)
      decreases |replies| - k
    {
      k := k + 1;
      calls := calls + [Mincore(address, length)];
    }
    after := k + 1;
    filled := NextAction(ReplyAt(replies, k)) == Filled;
    if filled {
      var count := length / pageSize;
      var firstPage := address / pageSize;
      forall j | 0 <= j < count {
        residency[j] := resident(firstPage + j);
      }
    }
  }
}

=== FILE: usize.dfy ===
/** Machine words of a 64-bit target: the range of `usize` and the two bitwise
    operators the page arithmetic uses (`&` and `!`), defined on naturals. */
module Usize {

  /** `usize::max_value()` on a 64-bit target. */
  const MAX: nat := 0xFFFF_FFFF_FFFF_FFFF

  /** The number of distinct `usize` values, 2^64; wrapping arithmetic works modulo it. */
  const MODULUS: nat := MAX + 1

  /** A power of two: 1, or an even number whose half is one. */
  predicate IsPowerOfTwo(n: nat)
    decreases n
  {
    n == 1 || (n >= 2 && n % 2 == 0 && IsPowerOfTwo(n / 2))
  }

  /** Bitwise and, one bit at a time from the least significant bit. */
  function And(a: nat, b: nat): nat
    decreases a
  {
    if a == 0 || b == 0 then 0
    else 2 * And(a / 2, b / 2) + (if a % 2 == 1 && b % 2 == 1 then 1 else 0)
  }

  /** Bitwise complement of a `usize`. */
  function Not(x: nat): (r: nat)
    requires x <= MAX
    ensures r <= MAX && r + x == MAX
  {
    MAX - x
  }

  lemma {:induction false} AndSelf(a: nat)
    ensures And(a, a) == a
    decreases a
  {
    if a != 0 {
      AndSelf(a / 2);
    }
  }

  /** The test `p & (p - 1) == 0` that a page size must pass holds for a nonzero
      `p` exactly when `p` is a power of two. */
  lemma {:induction false} PowerOfTwoTest(p: nat)
    requires p >= 1
    ensures And(p, p - 1) == 0 <==> IsPowerOfTwo(p)
    decreases p
  {
    if p == 1 {
    } else if p % 2 == 0 {
      assert (p - 1) / 2 == p / 2 - 1;
      assert And(p, p - 1) == 2 * And(p / 2, p / 2 - 1);
      PowerOfTwoTest(p / 2);
    } else {
      assert (p - 1) / 2 == p / 2;
      assert And(p, p - 1) == 2 * And(p / 2, p / 2);
      AndSelf(p / 2);
    }
  }

  /** Dividing by two keeps a power of two a power of two, down to 1. */
  lemma HalfOfPowerOfTwo(p: nat)
    requires IsPowerOfTwo(p) && p >= 2
    ensures p % 2 == 0 && IsPowerOfTwo(p / 2)
  {
  }

  /** A power of two no larger than another divides it evenly and is no larger than its half. */
  lemma {:induction false} PowerOfTwoOrdered(p: nat, w: nat)
    requires IsPowerOfTwo(p) && IsPowerOfTwo(w) && p < w
    ensures w % 2 == 0 && p <= w / 2 && IsPowerOfTwo(w / 2)
    decreases p
  {
    if p >= 2 {
      PowerOfTwoOrdered(p / 2, w / 2);
    }
  }

  /** The remainder modulo an even number, from the remainder of the halves. */
  lemma ModHalf(a: nat, p: nat)
    requires p >= 2 && p % 2 == 0
    ensures a % p == 2 * ((a / 2) % (p / 2)) + a % 2
  {
    var h, q := p / 2, a / 2;
    var t, s := q / h, q % h;
    assert q == h * t + s;
    assert a == p * t + (2 * s + a % 2) by {
      assert a == 2 * q + a % 2;
      assert 2 * (h * t) == p * t;
    }
    ModUnique(a, p, t, 2 * s + a % 2);
  }

  /** A nonzero multiple of a positive number is at least that number away from zero. */
  lemma {:induction false} MulAwayFromZero(p: int, k: int)
    requires p > 0
    ensures k == 0 || p * k >= p || p * k <= -p
    decreases if k < 0 then -k else k
  {
    if k > 1 {
      MulAwayFromZero(p, k - 1);
      assert p * k == p * (k - 1) + p;
    } else if k < -1 {
      MulAwayFromZero(p, k + 1);
      assert p * k == p * (k + 1) - p;
    }
  }

  /** Euclidean division has one quotient and one remainder. */
  lemma ModUnique(a: nat, p: nat, t: nat, r: nat)
    requires 0 <= r < p && a == p * t + r
    ensures a % p == r && a / p == t
  {
    var q, m := a / p, a % p;
    assert a == p * q + m;
    assert p * (q - t) == r - m;
    MulAwayFromZero(p, q - t);
  }

  /** One step of `And` when the second operand is even, twice `h`. */
  lemma AndEvenStep(a: nat, b: nat, h: nat)
    requires a != 0 && b == 2 * h && h != 0
    ensures And(a, b) == 2 * And(a / 2, h)
  {
    assert b / 2 == h && b % 2 == 0;
  }

  /** Masking with all ones below a power of two keeps a smaller number whole. */
  lemma {:induction false} AndLowOnes(a: nat, w: nat)
    requires IsPowerOfTwo(w) && a < w
    ensures And(a, w - 1) == a
    decreases w
  {
    if a != 0 {
      HalfOfPowerOfTwo(w);
      assert (w - 1) / 2 == w / 2 - 1 && (w - 1) % 2 == 1;
      AndLowOnes(a / 2, w / 2);
    }
  }

  /** Masking with the bits from `p` up to below `w` clears the remainder modulo `p`. */
  lemma {:induction false} AndHighOnes(a: nat, w: nat, p: nat)
    requires IsPowerOfTwo(w) && IsPowerOfTwo(p) && p <= w && a < w
    ensures And(a, w - p) == a - a % p
    decreases p
  {
    if p == 1 {
      AndLowOnes(a, w);
      ModUnique(a, 1, a, 0);
    } else if p == w {
      ModUnique(a, p, 0, a);
    } else if a == 0 {
      ModUnique(0, p, 0, 0);
    } else {
      HalfOfPowerOfTwo(p);
      PowerOfTwoOrdered(p, w);
      HighMaskStep(a, w, p);
      AndHighOnes(a / 2, w / 2, p / 2);
      ClearedRemainderStep(a, p, And(a / 2, w / 2 - p / 2));
    }
  }

  /** Masking with `w - p` is masking the halves with `w/2 - p/2`, shifted left by one bit. */
  lemma HighMaskStep(a: nat, w: nat, p: nat)
    requires a != 0 && 2 <= p < w && p % 2 == 0 && w % 2 == 0 && p / 2 <= w / 2
    ensures And(a, w - p) == 2 * And(a / 2, w / 2 - p / 2)
  {
    assert w == 2 * (w / 2) && p == 2 * (p / 2);
    AndEvenStep(a, w - p, w / 2 - p / 2);
  }

  /** If the half of `a` with its remainder modulo `p/2` cleared is `inner`, then
      twice `inner` is `a` with its remainder modulo `p` cleared. */
  lemma ClearedRemainderStep(a: nat, p: nat, inner: int)
    requires p >= 2 && p % 2 == 0
    requires inner == a / 2 - (a / 2) % (p / 2)
    ensures 2 * inner == a - a % p
  {
    ModHalf(a, p);
  }

  lemma DoubleIsPowerOfTwo(n: nat)
    requires IsPowerOfTwo(n)
    ensures IsPowerOfTwo(2 * n)
  {
    assert (2 * n) / 2 == n;
  }

  lemma {:induction false} ProductIsPowerOfTwo(a: nat, b: nat)
    requires IsPowerOfTwo(a) && IsPowerOfTwo(b)
    ensures IsPowerOfTwo(a * b)
    decreases a
  {
    if a != 1 {
      ProductIsPowerOfTwo(a / 2, b);
      assert a * b == 2 * ((a / 2) * b);
      DoubleIsPowerOfTwo((a / 2) * b);
    }
  }

  lemma ModulusIsPowerOfTwo()
    ensures IsPowerOfTwo(MODULUS)
  {
    assert IsPowerOfTwo(256);
    ProductIsPowerOfTwo(256, 256);
    ProductIsPowerOfTwo(65536, 65536);
    ProductIsPowerOfTwo(0x1_0000_0000, 0x1_0000_0000);
  }

  /** `x & !(p - 1)` clears the low bits of `x`: it is `x` rounded down to a multiple of `p`. */
  lemma MaskRoundsDown(x: nat, p: nat)
    requires x <= MAX && IsPowerOfTwo(p) && p <= MAX
    ensures And(x, Not(p - 1)) == x - x % p
  {
    ModulusIsPowerOfTwo();
    assert Not(p - 1) == MODULUS - p;
    AndHighOnes(x, MODULUS, p);
  }
}
